=== FILE: README.md ===
# KMA short-term forecast core, modelled in Dafny

The repository wraps the Korea Meteorological Administration (KMA) village
forecast API (`getVilageFcst`) twice. One wrapper is in TypeScript
(`weather-ts/src/weather-api.ts` and `weather-ts/index.ts`) and one is in
Python (`weather-py/src/mcp_server_weather/server.py`). Each has two core
parts:

* **Base-time resolution.** The KMA publishes a forecast eight times a day,
  at 02, 05, 08, 11, 14, 17, 20 and 23 o'clock. An issue can be requested
  10 minutes after its hour. Given the wall clock, the resolver picks the
  latest issue that can be requested, as a `YYYYMMDD` date and an `HHMM`
  time. Before 02:10 that is the 23:00 issue of the previous day. There are
  three copies of the resolver:
  * `getCurrentDateTime` scans the slots backwards with a `found` flag;
  * `getBaseTime` in `index.ts` scans forwards and returns early;
  * `get_base_time` scans forwards with `for … else`.
* **Forecast reshaping.** The API returns a flat list of items:
  `fcstDate`, `fcstTime`, `category` and `fcstValue`.
  * `processForecasts` groups the items by date and time. It renames
    categories through `CATEGORY_MAP` and sky and precipitation codes
    through `WEATHER_CODES`. It returns the groups sorted by a
    `YYYY-MM-DD HH:MM` label.
  * `parseWeatherData` and `parse_weather_data` group the items under the key
    `<date>_<time>`.
  * `formatForecast` and `format_forecast` print one Korean paragraph for
    each of the first `limit` keys in sorted order.

## How the model is built

| File | What it holds |
|---|---|
| `text.dfy` | Decimal text, zero padding, clamped slicing and splitting at a separator. |
| `calendar.dfy` | Proleptic Gregorian dates, the previous day (`setDate(getDate() - 1)` or `timedelta(days=1)`) and `formatDate`. |
| `order.dfy` | Code-point order on strings, and a stable insertion sort used for `Array.prototype.sort`, `localeCompare` and `sorted`. |
| `base_time.dfy` | The resolver's meaning (`Resolve`), and proofs that it picks the latest issue at least 10 minutes old. |
| `forecast.dfy` | Shared parts of the reshapers. |
| `weather_api.dfy`, `weather_index.dfy`, `weather_server.dfy` | The three source files. |
| `agreement.dfy` | How the three copies relate. |

`forecast.dfy` holds:
* grouping into a table that remembers insertion order;
* last-write-wins;
* the code tables and the key label;
* the paragraph text;
* the shared loop that prints paragraphs;
* sorting groups by label.

The clock is an input: a `WallClock` with a date, an hour and a minute. Each
source method with a loop becomes a Dafny method with that loop. The
method's `ensures` ties its result to a specification function, and lemmas
state what the source promises about that function. A Python exception is
modelled as the `Raised` case of `Outcome`:
* `OverflowError` from `timedelta` on 0001-01-01;
* `IndexError` from `key.split('_')[1]`.

A TypeScript `TypeError` from `undefined.substring` is also modelled as
`Raised`.

## Model

| member | source | states |
|---|---|---|
| BaseTime.SlotHour | weather-ts/src/weather-api.ts:200-204 | Slot `i` of the eight issue times has hour `3*i+2`, the value `parseInt(time.substring(0, 2))` reads. |
| BaseTime.TwoDigitsValue | weather-ts/index.ts:79 | Two digits read as a number give ten times the first digit plus the second. |
| BaseTime.LatestDue | weather-ts/src/weather-api.ts:200-212 | The index found by the backward scan is due, and no later slot up to `i` is due. |
| BaseTime.LatestDueUnique | weather-ts/src/weather-api.ts:200-212 | Any index with those two properties is the one the backward scan finds. |
| BaseTime.FirstNotDue | weather-ts/index.ts:77-99 | The index where the forward scan stops is not due, and all slots before it are due. |
| BaseTime.FirstNotDueUnique | weather-py/src/mcp_server_weather/server.py:52-67 | Any index where the forward scan can stop is `FirstNotDue`: the first slot not due, or 8 when the `else` clause runs. |
| BaseTime.ScanDirectionsAgree | weather-ts/index.ts:77-99 | The forward scan stops one slot after the slot the backward scan finds, so the two scans pick the same issue. |
| BaseTime.FallbackUnreachable | weather-ts/src/weather-api.ts:215-219 | Once the clock is past 02:09, some slot is due, so the `!found` fallback never runs. |
| BaseTime.Resolve | weather-ts/src/weather-api.ts:159-222 | The chosen slot is one of the eight. The date is the previous day exactly when the clock is before 02:10, and otherwise today. Before 02:10 the slot is 23:00. |
| BaseTime.DueIsLagPassed | weather-ts/src/weather-api.ts:204-206 | The `hour > h \|\| (hour == h && minute >= 10)` test holds exactly when at least 10 minutes have passed since that issue time. |
| BaseTime.ResolveIsLatestPublished | weather-ts/src/weather-api.ts:159-222 | The resolved issue is at least 10 minutes old, and no other issue at least 10 minutes old is more recent. |
| BaseTime.LatestPublishedUnique | weather-ts/src/weather-api.ts:159-222 | Only one issue is the latest published, so every correct resolver returns `Resolve`. |
| Calendar.DaysInMonth | weather-ts/src/weather-api.ts:194 | A month has 28 to 31 days. February has 29 exactly in a leap year. |
| Calendar.PrevDay | weather-ts/src/weather-api.ts:194 | The previous day of a valid date is a valid, earlier date. Stepping back from January 1 gives December 31 of the year before. |
| Calendar.NextDay | weather-ts/index.ts:73 | The next day of a valid date is a valid, later date. |
| Calendar.PrevNextRoundTrip | weather-ts/index.ts:73 | Stepping back a day and then forward a day, or forward then back, returns the same date. |
| Calendar.PrevDayIsPredecessor | weather-ts/index.ts:73 | No valid date lies strictly between a date and its previous day. |
| Calendar.PaddedRoundTrip | weather-ts/src/weather-api.ts:184-185 | `padStart(2, "0")` of a month or day in 1..99 has two digits that read back as the number. |
| Calendar.FormatDateRoundTrip | weather-ts/src/weather-api.ts:182-187 | The text of a valid date is `String(year)` followed by two month digits and two day digits, and these read back as the month and the day. Negative years are included. |
| Calendar.FormatDateWidth | weather-ts/index.ts:112-117 | For four-digit years, `formatDate` gives eight digits. |
| Calendar.FormatDateInjective | weather-ts/index.ts:112-117 | Different valid dates format differently, for every year. |
| Text.DigitChar | weather-ts/src/weather-api.ts:184 | A digit below ten has a digit character whose code is `'0'` plus the digit. |
| Text.Decimal | weather-ts/src/weather-api.ts:183-185 | `String(n)` has at least one digit, and exactly one when `n < 10`. From 10 up it has no leading zero. |
| Text.DecimalRoundTrip | weather-ts/src/weather-api.ts:183-185 | Decimal text reads back as the number. |
| Text.IntTextRoundTrip | weather-ts/src/weather-api.ts:183 | `String(year)` reads back as the year: as digits, or as a minus sign followed by the digits of `-year`. |
| Text.IntTextInjective | weather-ts/src/weather-api.ts:183 | Different integers have different `String` texts. |
| Text.DecimalFourDigits | weather-ts/src/weather-api.ts:183 | A year from 1000 to 9999 has four digits. |
| Text.PadStart2 | weather-ts/src/weather-api.ts:184-185 | `padStart(2, "0")` keeps the text as a suffix, adds only zeros in front, and leaves text of length two or more unchanged. |
| Text.Slice | weather-ts/index.ts:162-166 | `substring`/slice with indices past the end clamps, and within bounds it is the plain subsequence. |
| Text.UpTo | weather-ts/index.ts:161 | The first field of `split(sep)` is a prefix without the separator. When shorter than the text, it is followed by the separator. |
| Text.SplitJoin | weather-py/src/mcp_server_weather/server.py:100-101 | Splitting `a + sep + b` with `a` and `b` free of the separator gives back `a` and `b`. |
| Text.UpToPrefix | weather-py/src/mcp_server_weather/server.py:100 | The first field of `a + rest` is `a` when `rest` starts with the separator. |
| Text.UpToWhole | weather-py/src/mcp_server_weather/server.py:100 | Text without the separator is its own first field. |
| Order.BelowIrreflexive | weather-ts/src/weather-api.ts:284 | No string sorts strictly before itself. |
| Order.BelowTransitive | weather-ts/src/weather-api.ts:284 | The string order is transitive. |
| Order.BelowTotal | weather-ts/src/weather-api.ts:284 | Any two strings are equal or ordered one way. |
| Order.BelowAsymmetric | weather-ts/src/weather-api.ts:284 | Two strings are never each before the other. |
| Order.InsertBy | weather-ts/src/weather-api.ts:284 | Inserting keeps the elements and adds one, and keeps a sorted sequence sorted. |
| Order.SortBy | weather-ts/src/weather-api.ts:284 | `sort` with a key comparator returns a permutation sorted by the key. |
| Order.SortStrings | weather-ts/index.ts:154 | `Object.keys(…).sort()` and `sorted(…)` return a sorted permutation of the keys. |
| Order.SortByStrict | weather-ts/src/weather-api.ts:284 | With distinct keys the sorted sequence is strictly increasing by key. |
| Order.PermutedKeysDistinct | weather-ts/src/weather-api.ts:284 | A permutation of elements with distinct keys has distinct keys for distinct elements. |
| Order.SortDistinctIncreasing | weather-py/src/mcp_server_weather/server.py:94 | Sorting distinct dictionary keys gives a strictly increasing sequence. |
| Order.MultisetDistinct | weather-py/src/mcp_server_weather/server.py:94 | A permutation of distinct elements has distinct elements. |
| Order.RepeatedCount | weather-py/src/mcp_server_weather/server.py:94 | An element at two positions occurs at least twice. |
| Order.DistinctCount | weather-py/src/mcp_server_weather/server.py:94 | In a sequence of distinct elements each element occurs at most once. |
| Order.IncreasingUnique | weather-py/src/mcp_server_weather/server.py:94 | Two strictly increasing sequences with the same elements are equal. |
| Order.IncreasingByUnique | weather-ts/src/weather-api.ts:284 | Two sequences strictly increasing by the same key, with the same elements, are equal: a strict sort's output does not depend on its input order. |
| Order.PermutationIndex | weather-ts/src/weather-api.ts:284 | Every element of a permutation occurs in the original. |
| Order.SameElementsEmpty | weather-py/src/mcp_server_weather/server.py:94 | Sequences with the same elements are empty together. |
| Forecast.PutWellFormed | weather-ts/index.ts:136-140 | One write keeps the table's key list and its groups in step, and adds the written key. |
| Forecast.GroupWellFormed | weather-ts/index.ts:128-141 | After the loop, every key is listed once and has a group, and every group is listed. |
| Forecast.FirstWrite | weather-ts/index.ts:136-138 | The index of the write that creates a group: it writes that key, and no earlier write does. It is -1 when no write does. |
| Forecast.GroupFirstWriteOrder | weather-ts/src/weather-api.ts:251-253 | A key has a group exactly when some write creates it, and the keys are listed by increasing first write, the insertion order `Object.entries` follows. |
| Forecast.GroupItems | weather-ts/index.ts:128-141 | The shared grouping loop of `parseWeatherData` and `parse_weather_data` builds the table `Group` of the `<date>_<time>` writes. |
| Forecast.GroupKeys | weather-py/src/mcp_server_weather/server.py:76-87 | A key has a group exactly when some item produced it. |
| Forecast.Rows | weather-py/src/mcp_server_weather/server.py:76-87 | Item `i` produces write `i`. |
| Forecast.PutLookup | weather-py/src/mcp_server_weather/server.py:84-87 | A write sets the written field of the written key, and leaves every other field and key as it was. |
| Forecast.GroupLastWins | weather-py/src/mcp_server_weather/server.py:76-87 | The stored value of a key and field is the value of the last item that wrote it. |
| Forecast.GroupFieldWritten | weather-py/src/mcp_server_weather/server.py:76-87 | Every stored field was written by some item. |
| Forecast.DateTimeLabelShape | weather-ts/index.ts:162-167 | The label of an eight-character date and four-character time is `YYYY-MM-DD HH:MM`, with separators at positions 4, 7, 10 and 13. |
| Forecast.DateTimeLabelInjective | weather-ts/index.ts:162-167 | Different dates or times of those widths give different labels. |
| Forecast.KeyLabelOfJoined | weather-ts/index.ts:161-167 | Splitting `date + sep + time` and relabelling gives the label of `date` and `time`. |
| Forecast.CodeLabel | weather-ts/index.ts:172-187 | A sky or precipitation code reads as its label exactly when the field is present and listed, and otherwise as `알 수 없음`. |
| Forecast.CodesLabelled | weather-ts/src/weather-api.ts:16-32 | No code label is `알 수 없음`, so a known code is never mistaken for an unknown one. |
| Forecast.ForecastText | weather-ts/index.ts:194-202 | A paragraph starts with a newline and the time label, and ends with a newline. |
| Forecast.ParagraphsRaised | weather-ts/index.ts:159-204 | Printing fails exactly when a printed key has no `_`. |
| Forecast.ParagraphsValue | weather-ts/index.ts:159-204 | Otherwise there is one paragraph per printed key, in key order, each the text of that key's group. |
| Forecast.ParagraphsSnoc | weather-ts/index.ts:203 | Printing one more key with `_` appends its paragraph. |
| Forecast.ParagraphsRaiseAt | weather-py/src/mcp_server_weather/server.py:101 | A key without `_` anywhere among the printed keys makes printing fail. |
| Forecast.ParagraphsAgree | weather-py/src/mcp_server_weather/server.py:99-138 | Two ways of reading a group that agree on every printed key print the same paragraphs. |
| Forecast.ParagraphsSameGroups | weather-py/src/mcp_server_weather/server.py:106 | The paragraphs depend only on the groups, not on the table's key order. |
| Forecast.SortedKeys | weather-py/src/mcp_server_weather/server.py:94 | The sorted keys are strictly increasing and are exactly the grouped keys. |
| Forecast.SortedKeysDetermined | weather-ts/index.ts:154 | Tables with the same groups have the same sorted keys, whatever order the keys were inserted in. |
| Forecast.PrintParagraphs | weather-ts/index.ts:159-204 | The printing loop returns the paragraphs of the printed keys, or fails as `Paragraphs` says. |
| Forecast.Entries | weather-ts/src/weather-api.ts:269-283 | `Object.entries(forecasts).map(…)` yields one entry per listed key, in order. Entry `i` holds the label of key `i` and that key's group. |
| Forecast.SortedGroups | weather-ts/src/weather-api.ts:269-284 | The reshaped groups are sorted by label, with one per distinct key, and none for no items. |
| Forecast.SortedGroupsEntries | weather-ts/src/weather-api.ts:269-284 | The reshaped groups are exactly the grouped keys, each with its label and its fields. |
| Forecast.SortedEntries | weather-ts/src/weather-api.ts:269-284 | Sorting the labelled entries of a table loses and adds nothing. |
| Forecast.EntryIsGroup | weather-ts/src/weather-api.ts:269-283 | Entry `i` is the labelled group of the `i`-th key. |
| Forecast.SortedGroupsDependsOnGroups | weather-ts/src/weather-api.ts:269-284 | When both results are strictly increasing by label, rows that build the same groups give the same sorted result, whatever order they wrote them in. |
| Forecast.SortedGroupsStrict | weather-ts/src/weather-api.ts:269-284 | When distinct keys have distinct labels, the reshaped groups are strictly increasing by label. |
| Forecast.SortedEntriesStrict | weather-ts/src/weather-api.ts:284 | The same, stated for a well-formed table. |
| WeatherApi.GetCurrentDateTime | weather-ts/src/weather-api.ts:159-222 | The backward scan with its `found` flag returns the formatted `Resolve` of the clock, with one of the eight issue times. |
| WeatherApi.DisplayValue | weather-ts/src/weather-api.ts:256-261 | A value changes exactly when it is a listed SKY or PTY code, and then becomes that code's label. |
| WeatherApi.DisplayCategory | weather-ts/src/weather-api.ts:264 | A category changes exactly when `CATEGORY_MAP` lists it, and then becomes its display name. |
| WeatherApi.Relabel | weather-ts/src/weather-api.ts:256-264 | The value conversion and category renaming of one item give `DisplayCategory` and `DisplayValue`. |
| WeatherApi.ProcessForecasts | weather-ts/src/weather-api.ts:239-285 | The grouping loop and the sort return `Reshape(items)`. |
| WeatherApi.ReshapeLastWins | weather-ts/src/weather-api.ts:243-266 | The group labelled with an item's date and time holds, under its display category, the display value of the last item writing there. |
| WeatherApi.ReshapeStrictlyIncreasing | weather-ts/src/weather-api.ts:269-284 | With eight-character dates and four-character times, the result is strictly increasing by label: one entry per time, in time order. |
| WeatherApi.ReshapeDependsOnGroups | weather-ts/src/weather-api.ts:239-284 | For items with eight-character dates and four-character times, the result depends only on the groups the items build: any reordering that leaves the last write under each key and display category unchanged gives the same result. |
| WeatherApi.LabelsDistinct | weather-ts/src/weather-api.ts:275-281 | Distinct keys of those widths get distinct labels. |
| WeatherIndex.GetBaseTime | weather-ts/index.ts:49-107 | The forward scan with early return returns the formatted `Resolve` of the clock. |
| WeatherIndex.ParseWeatherData | weather-ts/index.ts:122-144 | Runs the grouping loop, which builds the table of `<date>_<time>` keys grouped from the items. |
| WeatherIndex.ParseLastWins | weather-ts/index.ts:128-141 | The group of an item's key holds, under its category, the value of the last item writing there. |
| WeatherIndex.TsField | weather-ts/index.ts:189-192 | `data.X \|\| "알 수 없음"` is the field when present and non-empty, and otherwise `알 수 없음`. |
| WeatherIndex.TsCount | weather-ts/index.ts:159 | The loop runs `min(n, limit)` times, and not at all for a negative limit. |
| WeatherIndex.TsShown | weather-ts/index.ts:154-160 | The printed keys are the first `min(n, limit)` sorted keys. |
| WeatherIndex.FormatForecast | weather-ts/index.ts:149-207 | `formatForecast` returns the paragraphs of the printed keys (`TsFormat`). `limit` defaults to `Forecast.DefaultLimit`, which is 8. |
| WeatherServer.PyYesterday | weather-py/src/mcp_server_weather/server.py:49 | `now - timedelta(days=1)` is the previous day, and raises only on 0001-01-01. |
| WeatherServer.PyBaseTime | weather-py/src/mcp_server_weather/server.py:37-69 | `get_base_time` raises exactly before 02:10 on 0001-01-01, and otherwise returns the formatted `Resolve`. |
| WeatherServer.GetBaseTime | weather-py/src/mcp_server_weather/server.py:37-69 | The `for … else` scan returns `PyBaseTime`. |
| WeatherServer.ParseWeatherData | weather-py/src/mcp_server_weather/server.py:71-89 | Runs the same grouping loop, which builds the table of `<date>_<time>` keys grouped from the items. |
| WeatherServer.PyField | weather-py/src/mcp_server_weather/server.py:124-127 | `data.get(X, '알 수 없음')` is the field when present, empty or not, and otherwise `알 수 없음`. |
| WeatherServer.PySlice | weather-py/src/mcp_server_weather/server.py:99 | `keys[:limit]` is a prefix of `min(limit, n)` keys, or of `max(n + limit, 0)` keys when `limit` is negative. |
| WeatherServer.PyShown | weather-py/src/mcp_server_weather/server.py:94-99 | The printed keys are that prefix of the sorted keys. |
| WeatherServer.FormatForecast | weather-py/src/mcp_server_weather/server.py:91-140 | `format_forecast` returns the paragraphs of the printed keys (`PyFormat`). `limit` defaults to `Forecast.DefaultLimit`, which is 8. |
| Agreement.ResolversAgree | weather-py/src/mcp_server_weather/server.py:37-69 | On any clock reading the two TypeScript resolvers return the same pair. The Python one returns it too, and raises only before 02:10 on 0001-01-01. |
| Agreement.DefaultFormats | weather-py/src/mcp_server_weather/server.py:190 | Called without a limit, both formatters use the default `limit` of 8. Both print the first `min(n, 8)` sorted keys. The default is declared at `index.ts` line 151 and `server.py` line 91, and the tool handlers rely on it. |
| Agreement.EntriesAgree | weather-ts/index.ts:189-192 | The TypeScript and the Python paragraph of a group are the same exactly when none of TMP, POP, REH, WSD is present but empty. |
| Agreement.FormatsAgree | weather-py/src/mcp_server_weather/server.py:91-140 | For `limit >= 0` both formatters print the same keys, and the same paragraphs unless a group has an empty reading. |
| Agreement.NegativeLimit | weather-ts/index.ts:159 | For a negative limit `formatForecast` prints nothing, while `format_forecast` prints all but the last `-limit` keys. |
| Agreement.FormatOrderIndependent | weather-ts/index.ts:154 | Both formatters' output depends only on the groups, not on item order beyond last-write-wins. |

## Left out

- The clock is an input. The models leave out reading it, and leave out converting to Asia/Seoul through `toLocaleString` in `weather-api.ts` or to the host time zone in `index.ts` and `server.py`. Daylight-saving jumps of the host zone are left out too. The previous day is the calendar day before, not "24 hours earlier".
- JavaScript `Date` is limited to ±100,000,000 days, and Python `datetime` to years 1 to 9999. Only the Python lower bound, `OverflowError` on 0001-01-01, is modelled.
- Calendar.FormatDate: the year is printed as `String(year)` prints it: unpadded below 1000, with a minus sign when negative. This is also what `strftime("%Y")` gives with glibc. Platforms whose `strftime("%Y")` zero-pads years below 1000 to four digits are not modelled.
- Order.SortBy: `localeCompare` is modelled as code-point order. The two orders agree when every label has the `YYYY-MM-DD HH:MM` shape, which holds when every `fcstDate` has eight digits and every `fcstTime` four: two such labels first differ at a digit. They can disagree on other labels. For example, with times "1" and "10" on one date, the labels "… 1:" and "… 10:" rank one way by code point and the other way by collation, because collation puts `:` before the digits. That collation is not modelled.
- Order.SortBy: the insertion sort is stable, like `Array.prototype.sort`, but no lemma states stability. Groups whose labels coincide (times "1200" and "12000" on one date) keep their first-write order (`Forecast.GroupFirstWriteOrder`) in the model's output, but this is not proved.
- Order.SortStrings: JavaScript `sort()` compares UTF-16 code units while Python compares code points. The two differ only for characters beyond U+FFFF against U+E000–U+FFFF, which the model does not distinguish.
- Items with missing fields are not modelled. Python's `item.get` would produce `None`, and the key would contain `None` or `undefined`. Item fields are strings here.
- Lookups that hit `Object.prototype` members are not modelled. Examples are the categories `constructor` and `__proto__`, and a SKY code `toString`. Plain objects are modelled as maps.
- `WeatherApi.ProcessForecasts`: the order of fields inside a group's record is not modelled, because a group is a map. `Object.entries` lists string keys in insertion order. The integer-like-key exception does not apply, because every key contains a space.
- The exception type and message of a failing formatter are not modelled, only that it fails (`Raised`). The paragraphs already pushed are discarded, as a throw does.
- A non-integer or non-number `limit` in `formatForecast` (`Math.min` with a fraction or `NaN`) is not modelled. `limit` is an `int`.
- Both `ParseWeatherData` methods run the shared grouping loop `Forecast.GroupItems`, because the two source functions do the same thing.
- Both `FormatForecast` methods call the shared printing loop `Forecast.PrintParagraphs`, which runs the loop body once per printed key. They do not each repeat the loop.
- The HTTP request (`make_api_request`, `fetch`), the response envelope checks, the environment-variable API key and the MCP tool handlers are not part of this model. Neither are `getCurrentWeather`/`get_current_weather` and the CLI entry points.
- The `!found` branch of `getCurrentDateTime` is modelled, and `BaseTime.FallbackUnreachable` proves it never runs.

=== FILE: agreement.dfy ===
/** How the three copies of the weather code relate: the resolvers compute the
    same issue, and the two formatters print the same paragraphs except where
    `||` and `dict.get` or a negative limit tell them apart. */
module Agreement {
  import opened Calendar
  import opened Order
  import opened BaseTime
  import opened Forecast
  import WeatherApi
  import WeatherIndex
  import WeatherServer

  /** Runs the three resolvers on one clock reading: the two TypeScript ones
      return the same pair, and the Python one returns it too unless it raises,
      which it does only when stepping back from 0001-01-01. */
  method ResolversAgree(now: WallClock) returns (api: (string, string), index: (string, string), py: Outcome<(string, string)>)
    requires WeatherServer.PyClock(now)
    ensures api == index
    ensures py.Value? ==> py.value == api
    ensures py.Raised? <==> BeforeFirstSlot(now.hour, now.minute) && now.date == Date(1, 1, 1)
  {
    var apiDate, apiTime := WeatherApi.GetCurrentDateTime(now);
    var indexDate, indexTime := WeatherIndex.GetBaseTime(now);
    api, index := (apiDate, apiTime), (indexDate, indexTime);
    py := WeatherServer.GetBaseTime(now);
  }

  /** Called without a limit, as the tool handlers call them, both formatters
      print the first eight groups in key order. */
  method DefaultFormats(t: Table) returns (ts: Outcome<seq<string>>, py: Outcome<seq<string>>)
    ensures ts == WeatherIndex.TsFormat(t, 8) && py == WeatherServer.PyFormat(t, 8)
    ensures |WeatherIndex.TsShown(t, 8)| == |WeatherServer.PyShown(t, 8)| == if |t.order| < 8 then |t.order| else 8
  {
    ts := WeatherIndex.FormatForecast(t);
    py := WeatherServer.FormatForecast(t);
  }

  /** Field `name` is present but empty. */
  predicate PresentEmpty(data: map<string, string>, name: string)
  {
    name in data && data[name] == ""
  }

  /** None of the four readings printed as they are is present but empty. */
  predicate NoEmptyReadings(data: map<string, string>)
  {
    !PresentEmpty(data, "TMP") && !PresentEmpty(data, "POP") && !PresentEmpty(data, "REH") && !PresentEmpty(data, "WSD")
  }

  /** The TypeScript and the Python paragraph of a group are the same exactly
      when no reading is present but empty (`""` is falsy for `||`, while
      `dict.get` returns it). */
  lemma EntriesAgree(key: string, data: map<string, string>)
    ensures WeatherIndex.TsEntry(key, data) == WeatherServer.PyEntry(key, data) <==> NoEmptyReadings(data)
  {
  }

  /** For a non-negative limit both formatters print the same keys, and when no
      group has an empty reading they print the same paragraphs. */
  lemma FormatsAgree(t: Table, limit: int)
    requires 0 <= limit
    ensures WeatherIndex.TsShown(t, limit) == WeatherServer.PyShown(t, limit)
    ensures (forall k :: k in t.groups ==> NoEmptyReadings(t.groups[k]))
            ==> WeatherIndex.TsFormat(t, limit) == WeatherServer.PyFormat(t, limit)
  {
    var keys := WeatherIndex.TsShown(t, limit);
    if forall k :: k in t.groups ==> NoEmptyReadings(t.groups[k]) {
      forall j | 0 <= j < |keys|
        ensures WeatherIndex.TsEntry(keys[j], GroupOf(t, keys[j])) == WeatherServer.PyEntry(keys[j], GroupOf(t, keys[j]))
      {
        EntriesAgree(keys[j], GroupOf(t, keys[j]));
      }
      ParagraphsAgree(t, keys, WeatherIndex.TsEntry, WeatherServer.PyEntry);
    }
  }

  /** With a negative limit `formatForecast` prints nothing, while
      `format_forecast` prints all groups but the last `-limit`. */
  lemma NegativeLimit(t: Table, limit: int)
    requires limit < 0
    ensures WeatherIndex.TsFormat(t, limit) == Value([])
    ensures WeatherServer.PyFormat(t, limit).Value? ==>
      |WeatherServer.PyFormat(t, limit).value| == if |t.order| + limit < 0 then 0 else |t.order| + limit
  {
    var py := WeatherServer.PyFormat(t, limit);
    if py.Value? {
      ParagraphsValue(t, WeatherServer.PyShown(t, limit), WeatherServer.PyEntry);
    }
  }

  /** What either formatter prints depends only on the groups, not on the order
      in which their keys were first written. */
  lemma FormatOrderIndependent(t1: Table, t2: Table, limit: int)
    requires WellFormed(t1) && WellFormed(t2) && t1.groups == t2.groups
    ensures WeatherIndex.TsFormat(t1, limit) == WeatherIndex.TsFormat(t2, limit)
    ensures WeatherServer.PyFormat(t1, limit) == WeatherServer.PyFormat(t2, limit)
  {
    SortedKeysDetermined(t1, t2);
    assert |t1.order| == |t2.order| by {
      assert |SortStrings(t1.order)| == |SortStrings(t2.order)|;
    }
    ParagraphsSameGroups(t1, t2, WeatherIndex.TsShown(t1, limit), WeatherIndex.TsEntry);
    ParagraphsSameGroups(t1, t2, WeatherServer.PyShown(t1, limit), WeatherServer.PyEntry);
  }
}

=== FILE: base_time.dfy ===
/** The forecast base-time rule shared by the three resolvers: the short-term
    forecast is issued at eight fixed hours a day and an issue may be asked for
    once ten minutes of its hour have passed. */
module BaseTime {
  import opened Text
  import opened Calendar

  /** The issuance slots, as the `baseTimes` / `base_times` lists spell them. */
  const BaseTimes: seq<string> := ["0200", "0500", "0800", "1100", "1400", "1700", "2000", "2300"]

  /** Minutes after a slot's hour before its forecast is asked for. */
  const Lag := 10

  /** The local wall-clock reading the resolvers start from. */
  datatype WallClock = WallClock(date: Date, hour: int, minute: int)

  predicate ValidClock(c: WallClock)
  {
    ValidDate(c.date) && 0 <= c.hour < 24 && 0 <= c.minute < 60
  }

  /** The hour of slot `i`: `parseInt(baseTimes[i].substring(0, 2))` / `int(base_time[:2])`. */
  function SlotHour(i: int): (h: nat)
    requires 0 <= i < |BaseTimes|
    ensures h == 3 * i + 2
  {
    var s := BaseTimes[i][..2];
    TwoDigitsValue(s);
    DigitsValue(s)
  }

  /** The slot whose hour is `slotHour` may be used at `hour:minute` of the same day. */
  predicate Due(hour: int, minute: int, slotHour: int)
  {
    hour > slotHour || (hour == slotHour && minute >= Lag)
  }

  lemma TwoDigitsValue(s: string)
    requires |s| == 2 && AllDigits(s)
    ensures DigitsValue(s) == 10 * (s[0] as int - '0' as int) + (s[1] as int - '0' as int)
  {
    var t := s[..1];
    assert t[..0] == [] && t[0] == s[0];
    assert DigitsValue(t) == s[0] as int - '0' as int;
  }

  /** Before 02:10 no slot of the current day may be used yet. */
  predicate BeforeFirstSlot(hour: int, minute: int)
  {
    hour < 2 || (hour == 2 && minute < Lag)
  }

  /** The latest of the slots `0..i` that is due at `hour:minute`, or -1 if none is. */
  function LatestDue(hour: int, minute: int, i: int): (j: int)
    requires -1 <= i < |BaseTimes|
    ensures -1 <= j <= i
    ensures j >= 0 ==> Due(hour, minute, SlotHour(j))
    ensures forall k :: j < k <= i ==> !Due(hour, minute, SlotHour(k))
    decreases i + 1
  {
    if i < 0 then -1
    else if Due(hour, minute, SlotHour(i)) then i
    else LatestDue(hour, minute, i - 1)
  }

  /** `LatestDue` is the only index meeting its own description. */
  lemma LatestDueUnique(hour: int, minute: int, i: int, j: int)
    requires -1 <= j <= i < |BaseTimes|
    requires j >= 0 ==> Due(hour, minute, SlotHour(j))
    requires forall k :: j < k <= i ==> !Due(hour, minute, SlotHour(k))
    ensures j == LatestDue(hour, minute, i)
  {
    var l := LatestDue(hour, minute, i);
    if l >= 0 {
      assert Due(hour, minute, SlotHour(l));
    }
    if j >= 0 {
      assert Due(hour, minute, SlotHour(j));
    }
  }

  /** From 02:10 on the search for a due slot always succeeds, so a resolver's
      "nothing found" branch is never taken. */
  lemma FallbackUnreachable(hour: int, minute: int)
    requires !BeforeFirstSlot(hour, minute)
    ensures LatestDue(hour, minute, |BaseTimes| - 1) >= 0
  {
    assert Due(hour, minute, SlotHour(0));
  }

  /** The first of the slots `i..7` that is not yet due, or 8 if all are due. */
  function FirstNotDue(hour: int, minute: int, i: int): (j: int)
    requires 0 <= i <= |BaseTimes|
    ensures i <= j <= |BaseTimes|
    ensures j < |BaseTimes| ==> !Due(hour, minute, SlotHour(j))
    ensures forall k :: i <= k < j ==> Due(hour, minute, SlotHour(k))
    decreases |BaseTimes| - i
  {
    if i == |BaseTimes| then i
    else if !Due(hour, minute, SlotHour(i)) then i
    else FirstNotDue(hour, minute, i + 1)
  }

  /** `FirstNotDue` is the only index meeting its own description. */
  lemma FirstNotDueUnique(hour: int, minute: int, i: int, j: int)
    requires 0 <= i <= j <= |BaseTimes|
    requires j < |BaseTimes| ==> !Due(hour, minute, SlotHour(j))
    requires forall k :: i <= k < j ==> Due(hour, minute, SlotHour(k))
    ensures j == FirstNotDue(hour, minute, i)
  {
    var f := FirstNotDue(hour, minute, i);
    if f < |BaseTimes| {
      assert !Due(hour, minute, SlotHour(f));
    }
    if j < |BaseTimes| {
      assert !Due(hour, minute, SlotHour(j));
    }
  }

  /** Slots are due in order: the forward scan stops just after the slot the
      backward scan finds. */
  lemma ScanDirectionsAgree(hour: int, minute: int)
    ensures FirstNotDue(hour, minute, 0) == LatestDue(hour, minute, |BaseTimes| - 1) + 1
  {
    var l := LatestDue(hour, minute, |BaseTimes| - 1);
    assert forall k :: 0 <= k <= l ==> Due(hour, minute, SlotHour(k));
  }

  /** A resolved forecast issue: a calendar date and the index of one of the slots. */
  datatype Base = Base(date: Date, slot: nat)

  /** The issue to ask for at clock reading `c`. */
  function Resolve(c: WallClock): (b: Base)
    ensures b.slot < |BaseTimes|
    ensures b.date == PrevDay(c.date) <==> BeforeFirstSlot(c.hour, c.minute)
    ensures b.date != PrevDay(c.date) ==> b.date == c.date
    ensures BeforeFirstSlot(c.hour, c.minute) ==> b.slot == |BaseTimes| - 1
  {
    if BeforeFirstSlot(c.hour, c.minute) then Base(PrevDay(c.date), |BaseTimes| - 1)
    else
      FallbackUnreachable(c.hour, c.minute);
      Base(c.date, LatestDue(c.hour, c.minute, |BaseTimes| - 1))
  }

  /** The `(baseDate, baseTime)` pair of an issue. */
  function Render(b: Base): (r: (string, string))
    requires b.slot < |BaseTimes|
  {
    (FormatDate(b.date), BaseTimes[b.slot])
  }

  /** Minutes from the nominal time of slot `b` (of today or of yesterday) to `c`. */
  function Elapsed(c: WallClock, b: Base): int
    requires b.slot < |BaseTimes|
  {
    (if b.date == c.date then 0 else 24 * 60) + 60 * c.hour + c.minute - 60 * SlotHour(b.slot)
  }

  /** `b` is an issue of today or yesterday whose time is at least `Lag` minutes in the past. */
  ghost predicate Published(c: WallClock, b: Base)
  {
    b.slot < |BaseTimes| && (b.date == c.date || b.date == PrevDay(c.date)) && Elapsed(c, b) >= Lag
  }

  /** `b` is the most recent published issue. */
  ghost predicate LatestPublished(c: WallClock, b: Base)
  {
    Published(c, b) && forall b' :: Published(c, b') ==> Elapsed(c, b) <= Elapsed(c, b')
  }

  /** On a valid clock, being due by the hour-and-minute test is the same as
      lying at least `Lag` minutes in the past. */
  lemma DueIsLagPassed(c: WallClock, i: int)
    requires ValidClock(c) && 0 <= i < |BaseTimes|
    ensures Due(c.hour, c.minute, SlotHour(i)) <==> Elapsed(c, Base(c.date, i)) >= Lag
  {
  }

  /** `Resolve` picks the most recent issue published at least ten minutes ago. */
  lemma ResolveIsLatestPublished(c: WallClock)
    requires ValidClock(c)
    ensures LatestPublished(c, Resolve(c))
  {
    var r := Resolve(c);
    assert Published(c, r);
    forall b' | Published(c, b') ensures Elapsed(c, r) <= Elapsed(c, b') {
      if b'.date == c.date {
        assert Due(c.hour, c.minute, SlotHour(b'.slot));
        assert !BeforeFirstSlot(c.hour, c.minute);
      }
    }
  }

  /** There is only one most recent published issue, so the rule determines the answer. */
  lemma LatestPublishedUnique(c: WallClock, b: Base)
    requires ValidClock(c) && LatestPublished(c, b)
    ensures b == Resolve(c)
  {
    ResolveIsLatestPublished(c);
    var r := Resolve(c);
    assert Elapsed(c, b) == Elapsed(c, r);
  }
}

=== FILE: calendar.dfy ===
/** Calendar dates of the proleptic Gregorian calendar, the day before a date
    (what `new Date(t - 24h)`, `setDate(getDate() - 1)` and
    `now - timedelta(days=1)` compute) and the `YYYYMMDD` text of a date. */
module Calendar {
  import opened Text

  /** A wall-clock calendar date; `month` is 1-based as printed, not as `getMonth()` returns it. */
  datatype Date = Date(year: int, month: int, day: int)

  predicate IsLeapYear(y: int)
  {
    y % 4 == 0 && (y % 100 != 0 || y % 400 == 0)
  }

  /** Days in month `m` of year `y` (31 for a month number outside 1..12). */
  function DaysInMonth(y: int, m: int): (n: int)
    ensures 28 <= n <= 31
    ensures m == 2 ==> (n == 29 <==> IsLeapYear(y))
  {
    if m == 2 then (if IsLeapYear(y) then 29 else 28)
    else if m == 4 || m == 6 || m == 9 || m == 11 then 30
    else 31
  }

  predicate ValidDate(d: Date)
  {
    1 <= d.month <= 12 && 1 <= d.day <= DaysInMonth(d.year, d.month)
  }

  /** Chronological order of dates: by year, then month, then day. */
  predicate Before(a: Date, b: Date)
  {
    a.year < b.year
    || (a.year == b.year && a.month < b.month)
    || (a.year == b.year && a.month == b.month && a.day < b.day)
  }

  /** The calendar day before `d`, with month and year roll-over. */
  function PrevDay(d: Date): (p: Date)
    ensures p != d
    ensures ValidDate(d) ==> ValidDate(p) && Before(p, d)
    ensures d.month == 1 && d.day == 1 ==> p == Date(d.year - 1, 12, 31)
  {
    if d.day > 1 then Date(d.year, d.month, d.day - 1)
    else if d.month > 1 then Date(d.year, d.month - 1, DaysInMonth(d.year, d.month - 1))
    else Date(d.year - 1, 12, 31)
  }

  /** The calendar day after `d`. */
  function NextDay(d: Date): (n: Date)
    ensures ValidDate(d) ==> ValidDate(n) && Before(d, n)
  {
    if d.day < DaysInMonth(d.year, d.month) then Date(d.year, d.month, d.day + 1)
    else if d.month < 12 then Date(d.year, d.month + 1, 1)
    else Date(d.year + 1, 1, 1)
  }

  /** `PrevDay` and `NextDay` undo each other on valid dates. */
  lemma PrevNextRoundTrip(d: Date)
    requires ValidDate(d)
    ensures NextDay(PrevDay(d)) == d
    ensures PrevDay(NextDay(d)) == d
  {
  }

  /** `PrevDay(d)` is the immediate predecessor of `d`: no valid date lies
      strictly between the two. */
  lemma PrevDayIsPredecessor(d: Date, e: Date)
    requires ValidDate(d) && ValidDate(e)
    requires Before(e, d)
    ensures e == PrevDay(d) || Before(e, PrevDay(d))
  {
  }

  /** `formatDate`: the year as `String(year)`, then the month and the day
      each padded to two digits. */
  function FormatDate(d: Date): string
  {
    IntText(d.year) + PadStart2(IntText(d.month)) + PadStart2(IntText(d.day))
  }

  /** Two-digit padding of a number from 1 to 99 reads back as that number. */
  lemma {:induction false} PaddedRoundTrip(n: int)
    requires 1 <= n <= 99
    ensures |PadStart2(IntText(n))| == 2
    ensures AllDigits(PadStart2(IntText(n)))
    ensures DigitsValue(PadStart2(IntText(n))) == n
  {
    DecimalRoundTrip(n);
    var s := Decimal(n);
    var p := PadStart2(s);
    if n < 10 {
      assert p == "0" + s;
      assert p[..1] == "0";
      assert DigitsValue(p[..1]) == 0 by {
        assert p[..1][..0] == [];
      }
    } else {
      assert n / 10 < 10;
      assert |s| == |Decimal(n / 10)| + 1;
    }
  }

  /** The text of `FormatDate` of a valid date splits into `String(year)`
      followed by two digits of month and two of day, which read back as the
      date; `IntTextRoundTrip` reads the year back, minus sign included. */
  lemma FormatDateRoundTrip(d: Date)
    requires ValidDate(d)
    ensures var s := FormatDate(d);
      |s| >= 5 && s[..|s| - 4] == IntText(d.year)
      && AllDigits(s[|s| - 4..|s| - 2]) && DigitsValue(s[|s| - 4..|s| - 2]) == d.month
      && AllDigits(s[|s| - 2..]) && DigitsValue(s[|s| - 2..]) == d.day
  {
    var y, m, dd := IntText(d.year), PadStart2(IntText(d.month)), PadStart2(IntText(d.day));
    PaddedRoundTrip(d.month);
    PaddedRoundTrip(d.day);
    var s := FormatDate(d);
    assert s == y + m + dd;
    assert s[..|s| - 4] == y;
    assert s[|s| - 4..|s| - 2] == m;
    assert s[|s| - 2..] == dd;
  }

  /** A date of a four-digit year is formatted as exactly eight digits. */
  lemma FormatDateWidth(d: Date)
    requires ValidDate(d) && 1000 <= d.year <= 9999
    ensures |FormatDate(d)| == 8 && AllDigits(FormatDate(d))
  {
    DecimalFourDigits(d.year);
    IntTextRoundTrip(d.year);
    FormatDateRoundTrip(d);
    var s := FormatDate(d);
    forall i | 0 <= i < |s| ensures IsDigit(s[i]) {
      if i < 4 {
        assert s[i] == s[..4][i];
      } else if i < 6 {
        assert s[i] == s[4..6][i - 4];
      } else {
        assert s[i] == s[6..][i - 6];
      }
    }
  }

  /** Different valid dates have different texts. */
  lemma FormatDateInjective(d: Date, e: Date)
    requires ValidDate(d) && ValidDate(e)
    requires FormatDate(d) == FormatDate(e)
    ensures d == e
  {
    FormatDateRoundTrip(d);
    FormatDateRoundTrip(e);
    IntTextInjective(d.year, e.year);
  }
}

=== FILE: forecast.dfy ===
/** The forecast reshaper shared by the three copies: forecast items are
    grouped into an insertion-ordered dictionary from a date-time key to a
    dictionary from category to value, sky and precipitation codes have fixed
    labels, and each key prints as `YYYY-MM-DD HH:MM`. */
module Forecast {
  import opened Text
  import opened Order

  /** One item of the forecast response (`fcstDate`, `fcstTime`, `category`, `fcstValue`). */
  datatype Item = Item(fcstDate: string, fcstTime: string, category: string, fcstValue: string)

  /** One write `forecasts[key][field] = value` of a grouping loop. */
  datatype Row = Row(key: string, field: string, value: string)

  /** An insertion-ordered dictionary of dictionaries, as JavaScript objects and
      Python dicts keep their keys: `order` lists the outer keys in the order
      they were first written. */
  datatype Table = Table(order: seq<string>, groups: map<string, map<string, string>>)

  predicate WellFormed(t: Table)
  {
    (forall i, j :: 0 <= i < j < |t.order| ==> t.order[i] != t.order[j])
    && t.groups.Keys == (set k | k in t.order)
  }

  /** One step of a grouping loop: create the group of `r.key` if it is missing,
      then set its field `r.field` to `r.value`. */
  function Put(t: Table, r: Row): Table
  {
    if r.key in t.groups then Table(t.order, t.groups[r.key := t.groups[r.key][r.field := r.value]])
    else Table(t.order + [r.key], t.groups[r.key := map[r.field := r.value]])
  }

  /** A write keeps the key list and the groups in step, adding a key only when it is new. */
  lemma PutWellFormed(t: Table, r: Row)
    requires WellFormed(t) && |t.order| == |t.groups|
    ensures WellFormed(Put(t, r)) && |Put(t, r).order| == |Put(t, r).groups|
    ensures Put(t, r).groups.Keys == t.groups.Keys + {r.key}
  {
    if r.key !in t.groups {
      var u := Put(t, r);
      assert u.groups.Keys == t.groups.Keys + {r.key};
      assert (set k | k in u.order) == (set k | k in t.order) + {r.key};
    }
  }

  /** The dictionary built by performing the writes `rows` in order on an empty one:
      its keys are listed once each, in first-write order. */
  function Group(rows: seq<Row>): (t: Table)
    decreases |rows|
  {
    if rows == [] then Table([], map[])
    else Put(Group(rows[..|rows| - 1]), rows[|rows| - 1])
  }

  /** Every key of the result is listed exactly once in `order`. */
  lemma {:induction false} GroupWellFormed(rows: seq<Row>)
    ensures WellFormed(Group(rows)) && |Group(rows).order| == |Group(rows).groups|
    decreases |rows|
  {
    if rows != [] {
      GroupWellFormed(rows[..|rows| - 1]);
      PutWellFormed(Group(rows[..|rows| - 1]), rows[|rows| - 1]);
    }
  }

  /** The groups are exactly the keys written: one entry per distinct key. */
  lemma {:induction false} GroupKeys(rows: seq<Row>)
    ensures forall k :: k in Group(rows).groups <==> exists i :: 0 <= i < |rows| && rows[i].key == k
    decreases |rows|
  {
    if rows != [] {
      var init := rows[..|rows| - 1];
      GroupKeys(init);
      forall k ensures k in Group(rows).groups <==> exists i :: 0 <= i < |rows| && rows[i].key == k {
        if k in Group(init).groups {
          var i :| 0 <= i < |init| && init[i].key == k;
          assert rows[i].key == k;
        }
        if exists i :: 0 <= i < |rows| && rows[i].key == k {
          var i :| 0 <= i < |rows| && rows[i].key == k;
          if i < |rows| - 1 {
            assert init[i].key == k;
          }
        }
      }
    }
  }

  /** The index of the first write to group `k`, or -1 if no write creates it. */
  function FirstWrite(rows: seq<Row>, k: string): (i: int)
    ensures -1 <= i < |rows|
    ensures 0 <= i ==> rows[i].key == k && forall j :: 0 <= j < i ==> rows[j].key != k
    ensures i < 0 ==> forall j :: 0 <= j < |rows| ==> rows[j].key != k
    decreases |rows|
  {
    if rows == [] then -1
    else
      var p := FirstWrite(rows[..|rows| - 1], k);
      if 0 <= p then p
      else if rows[|rows| - 1].key == k then |rows| - 1
      else -1
  }

  /** The keys are listed in the order of their first writes, as a dictionary
      that keeps insertion order lists them. */
  lemma {:induction false} GroupFirstWriteOrder(rows: seq<Row>)
    ensures forall k :: k in Group(rows).groups <==> 0 <= FirstWrite(rows, k)
    ensures forall a, b :: 0 <= a < b < |Group(rows).order| ==>
      0 <= FirstWrite(rows, Group(rows).order[a]) < FirstWrite(rows, Group(rows).order[b])
    decreases |rows|
  {
    if rows != [] {
      var init, last := rows[..|rows| - 1], rows[|rows| - 1];
      GroupFirstWriteOrder(init);
      GroupWellFormed(init);
      var t0, t := Group(init), Group(rows);
      forall k ensures 0 <= FirstWrite(init, k) ==> FirstWrite(rows, k) == FirstWrite(init, k) {
      }
      assert t.order == if last.key in t0.groups then t0.order else t0.order + [last.key];
      forall a, b | 0 <= a < b < |t.order|
        ensures 0 <= FirstWrite(rows, t.order[a]) < FirstWrite(rows, t.order[b])
      {
        assert t.order[a] == t0.order[a] && t0.order[a] in t0.groups;
        if b < |t0.order| {
          assert t.order[b] == t0.order[b] && t0.order[b] in t0.groups;
        } else {
          assert FirstWrite(rows, t.order[b]) == |rows| - 1;
        }
      }
    } else {
      assert Group(rows).order == [];
    }
  }

  /** The writes `rows` mapped from `items`. */
  function Rows(items: seq<Item>, rowOf: Item -> Row): (rows: seq<Row>)
    ensures |rows| == |items|
    ensures forall i :: 0 <= i < |items| ==> rows[i] == rowOf(items[i])
  {
    seq(|items|, i requires 0 <= i < |items| => rowOf(items[i]))
  }

  /** `rows[i]` is the last write of field `f` in group `k`. */
  predicate LastWrite(rows: seq<Row>, i: int, k: string, f: string)
  {
    0 <= i < |rows| && rows[i].key == k && rows[i].field == f
    && forall j :: i < j < |rows| ==> !(rows[j].key == k && rows[j].field == f)
  }

  /** What a single write changes: only field `r.field` of group `r.key`. */
  lemma PutLookup(t: Table, r: Row, k: string, f: string)
    ensures var u := Put(t, r);
      (k in u.groups && f in u.groups[k])
      <==> ((k == r.key && f == r.field) || (k in t.groups && f in t.groups[k]))
    ensures var u := Put(t, r);
      k in u.groups && f in u.groups[k] ==>
        u.groups[k][f] == if k == r.key && f == r.field then r.value else t.groups[k][f]
  {
    var u := Put(t, r);
    if r.key in t.groups {
      assert u.groups == t.groups[r.key := t.groups[r.key][r.field := r.value]];
    } else {
      assert u.groups == t.groups[r.key := map[r.field := r.value]];
    }
  }

  /** Last write wins: the field holds the value of its last write. */
  lemma {:induction false} GroupLastWins(rows: seq<Row>, i: int, k: string, f: string)
    requires LastWrite(rows, i, k, f)
    ensures k in Group(rows).groups && f in Group(rows).groups[k]
    ensures Group(rows).groups[k][f] == rows[i].value
    decreases |rows|
  {
    var init := rows[..|rows| - 1];
    var r := rows[|rows| - 1];
    assert Group(rows) == Put(Group(init), r);
    PutLookup(Group(init), r, k, f);
    if i < |rows| - 1 {
      assert LastWrite(init, i, k, f);
      GroupLastWins(init, i, k, f);
    }
  }

  /** Every field of every group was written by some row. */
  lemma {:induction false} GroupFieldWritten(rows: seq<Row>, k: string, f: string)
    requires k in Group(rows).groups && f in Group(rows).groups[k]
    ensures exists i :: LastWrite(rows, i, k, f)
    decreases |rows|
  {
    var init := rows[..|rows| - 1];
    var r := rows[|rows| - 1];
    assert Group(rows) == Put(Group(init), r);
    PutLookup(Group(init), r, k, f);
    if r.key == k && r.field == f {
      assert LastWrite(rows, |rows| - 1, k, f);
    } else {
      GroupFieldWritten(init, k, f);
      var i :| LastWrite(init, i, k, f);
      assert LastWrite(rows, i, k, f);
    }
  }

  /** Label of an unknown or missing code or value. */
  const Unknown := "알 수 없음"

  /** Labels of the sky-condition codes (`WEATHER_CODES.SKY`, `skyConditionMap`). */
  const SkyCodes: map<string, string> := map["1" := "맑음", "3" := "구름많음", "4" := "흐림"]

  /** Labels of the precipitation-type codes (`WEATHER_CODES.PTY`, `precipitationTypeMap`). */
  const PtyCodes: map<string, string> :=
    map["0" := "없음", "1" := "비", "2" := "비/눈", "3" := "눈", "4" := "소나기"]

  /** `date.slice(0, 4)-date.slice(4, 6)-date.slice(6, 8) time.slice(0, 2):time.slice(2, 4)`. */
  function DateTimeLabel(date: string, time: string): string
  {
    Slice(date, 0, 4) + "-" + Slice(date, 4, 6) + "-" + Slice(date, 6, 8) + " "
      + Slice(time, 0, 2) + ":" + Slice(time, 2, 4)
  }

  /** The label of a grouping key: split at the first two separators, then reformatted. */
  function KeyLabel(key: string, sep: char): string
  {
    DateTimeLabel(UpTo(key, sep), SecondField(key, sep))
  }

  /** An eight-digit date and a four-digit time give a sixteen-character label
      `YYYY-MM-DD HH:MM` holding their digits in order. */
  lemma DateTimeLabelShape(date: string, time: string)
    requires |date| == 8 && |time| == 4
    ensures var s := DateTimeLabel(date, time);
      |s| == 16 && s[4] == '-' && s[7] == '-' && s[10] == ' ' && s[13] == ':'
      && s[..4] == date[..4] && s[5..7] == date[4..6] && s[8..10] == date[6..8]
      && s[11..13] == time[..2] && s[14..] == time[2..]
  {
  }

  /** Different eight-digit dates or four-digit times give different labels. */
  lemma DateTimeLabelInjective(d1: string, t1: string, d2: string, t2: string)
    requires |d1| == 8 && |t1| == 4 && |d2| == 8 && |t2| == 4
    requires DateTimeLabel(d1, t1) == DateTimeLabel(d2, t2)
    ensures d1 == d2 && t1 == t2
  {
    DateTimeLabelShape(d1, t1);
    DateTimeLabelShape(d2, t2);
    assert d1 == d1[..4] + d1[4..6] + d1[6..8];
    assert d2 == d2[..4] + d2[4..6] + d2[6..8];
    assert t1 == t1[..2] + t1[2..];
    assert t2 == t2[..2] + t2[2..];
  }

  /** The label of the key `date + sep + time` for a well-formed date and time. */
  lemma KeyLabelOfJoined(date: string, time: string, sep: char)
    requires sep !in date && sep !in time
    ensures KeyLabel(date + [sep] + time, sep) == DateTimeLabel(date, time)
  {
    SplitJoin(date, time, sep);
  }

  /** What a call gives back: a value, or an exception it raises. */
  datatype Outcome<T> = Value(value: T) | Raised

  /** The write one item makes in `parseWeatherData` / `parse_weather_data`:
      `forecasts["<fcstDate>_<fcstTime>"][category] = fcstValue`. */
  function KeyedRow(item: Item): Row
  {
    Row(item.fcstDate + "_" + item.fcstTime, item.category, item.fcstValue)
  }

  /** `parseWeatherData` / `parse_weather_data`: store each item's value under
      its category in the group of `"<fcstDate>_<fcstTime>"`, creating the
      group on first use. */
  method GroupItems(items: seq<Item>) returns (forecasts: Table)
    ensures forecasts == Group(Rows(items, KeyedRow))
  {
    var groups: map<string, map<string, string>> := map[];
    var keys: seq<string> := [];
    ghost var rows := Rows(items, KeyedRow);
    for n := 0 to |items|
      invariant Table(keys, groups) == Group(rows[..n])
    {
      var item := items[n];
      var key := item.fcstDate + "_" + item.fcstTime;
      if key !in groups {
        groups := groups[key := map[]];
        keys := keys + [key];
      }
      groups := groups[key := groups[key][item.category := item.fcstValue]];
      assert rows[..n + 1][..n] == rows[..n];
    }
    assert rows[..|items|] == rows;
    forecasts := Table(keys, groups);
  }

  /** The group stored under `k`, or none. */
  function GroupOf(t: Table, k: string): map<string, string>
  {
    if k in t.groups then t.groups[k] else map[]
  }

  /** The fields of one forecast paragraph of `formatForecast` / `format_forecast`. */
  datatype Entry = Entry(timeLabel: string, temp: string, sky: string, precipitation: string,
                         pop: string, humidity: string, windSpeed: string)

  /** The label of the code stored in field `name`, or `Unknown` when the field
      is missing or holds a code the table does not list. */
  function CodeLabel(codes: map<string, string>, data: map<string, string>, name: string): (r: string)
    requires Unknown !in codes.Values
    ensures r != Unknown <==> name in data && data[name] in codes
    ensures r != Unknown ==> r == codes[data[name]]
  {
    if name in data && data[name] in codes then codes[data[name]] else Unknown
  }

  lemma CodesLabelled()
    ensures Unknown !in SkyCodes.Values && Unknown !in PtyCodes.Values
  {
    forall v | v in SkyCodes.Values ensures v != Unknown {
      var k :| k in SkyCodes && SkyCodes[k] == v;
      assert k == "1" || k == "3" || k == "4";
    }
    forall v | v in PtyCodes.Values ensures v != Unknown {
      var k :| k in PtyCodes && PtyCodes[k] == v;
      assert k == "0" || k == "1" || k == "2" || k == "3" || k == "4";
    }
  }

  /** The paragraph printed for one entry. */
  function ForecastText(e: Entry): (s: string)
    ensures |s| > |e.timeLabel| + 1 && s[0] == '\n' && s[1..|e.timeLabel| + 1] == e.timeLabel
    ensures s[|s| - 1] == '\n'
  {
    var head := "\n" + e.timeLabel;
    var body := ":\n"
      + "기온: " + e.temp + "°C\n"
      + "날씨: " + e.sky + "\n"
      + "강수형태: " + e.precipitation + "\n"
      + "강수확률: " + e.pop + "%\n"
      + "습도: " + e.humidity + "%\n"
      + "풍속: " + e.windSpeed + "m/s\n";
    assert (head + body)[1..|e.timeLabel| + 1] == head[1..];
    head + body
  }

  /** The default `limit` of `formatForecast` and `format_forecast`. */
  const DefaultLimit := 8

  /** The paragraphs of the groups under `keys`, printed in that order; the split
      of a key without `_` fails (`timeStr` is `undefined` / the index `[1]` is
      out of range), and then the whole call fails. */
  function Paragraphs(t: Table, keys: seq<string>, entryOf: (string, map<string, string>) -> Entry): Outcome<seq<string>>
    decreases |keys|
  {
    if keys == [] then Value([])
    else
      var k := keys[|keys| - 1];
      var init := Paragraphs(t, keys[..|keys| - 1], entryOf);
      if init.Raised? || '_' !in k then Raised
      else Value(init.value + [ForecastText(entryOf(k, GroupOf(t, k)))])
  }

  /** Printing fails exactly when one of the keys has no `_`. */
  lemma {:induction false} ParagraphsRaised(t: Table, keys: seq<string>, entryOf: (string, map<string, string>) -> Entry)
    ensures Paragraphs(t, keys, entryOf).Raised? <==> exists j :: 0 <= j < |keys| && '_' !in keys[j]
    decreases |keys|
  {
    if keys != [] {
      var init := keys[..|keys| - 1];
      ParagraphsRaised(t, init, entryOf);
      if exists j :: 0 <= j < |init| && '_' !in init[j] {
        var j :| 0 <= j < |init| && '_' !in init[j];
        assert keys[j] == init[j];
      }
      if exists j :: 0 <= j < |keys| && '_' !in keys[j] {
        var j :| 0 <= j < |keys| && '_' !in keys[j];
        if j < |init| {
          assert init[j] == keys[j];
        }
      }
    }
  }

  /** Otherwise there is one paragraph per key, the `j`-th for the `j`-th key. */
  lemma {:induction false} ParagraphsValue(t: Table, keys: seq<string>, entryOf: (string, map<string, string>) -> Entry)
    requires Paragraphs(t, keys, entryOf).Value?
    ensures |Paragraphs(t, keys, entryOf).value| == |keys|
    ensures forall j :: 0 <= j < |keys| ==>
      Paragraphs(t, keys, entryOf).value[j] == ForecastText(entryOf(keys[j], GroupOf(t, keys[j])))
    decreases |keys|
  {
    if keys != [] {
      var init := keys[..|keys| - 1];
      ParagraphsValue(t, init, entryOf);
      forall j | 0 <= j < |init| ensures keys[j] == init[j] {
      }
    }
  }

  /** Printing one more key with a `_` appends its paragraph. */
  lemma ParagraphsSnoc(t: Table, keys: seq<string>, k: string, entryOf: (string, map<string, string>) -> Entry)
    requires Paragraphs(t, keys, entryOf).Value? && '_' in k
    ensures Paragraphs(t, keys + [k], entryOf)
      == Value(Paragraphs(t, keys, entryOf).value + [ForecastText(entryOf(k, GroupOf(t, k)))])
  {
    assert (keys + [k])[..|keys|] == keys;
  }

  /** A key without `_` among the printed ones makes the whole call fail. */
  lemma ParagraphsRaiseAt(t: Table, keys: seq<string>, i: int, entryOf: (string, map<string, string>) -> Entry)
    requires 0 <= i < |keys| && '_' !in keys[i]
    ensures Paragraphs(t, keys, entryOf) == Raised
  {
    ParagraphsRaised(t, keys, entryOf);
  }

  /** Two ways of filling in a paragraph that agree on every printed key print the same. */
  lemma {:induction false} ParagraphsAgree(t: Table, keys: seq<string>,
                                           e1: (string, map<string, string>) -> Entry,
                                           e2: (string, map<string, string>) -> Entry)
    requires forall j :: 0 <= j < |keys| ==> e1(keys[j], GroupOf(t, keys[j])) == e2(keys[j], GroupOf(t, keys[j]))
    ensures Paragraphs(t, keys, e1) == Paragraphs(t, keys, e2)
    decreases |keys|
  {
    if keys != [] {
      var init := keys[..|keys| - 1];
      forall j | 0 <= j < |init| ensures e1(init[j], GroupOf(t, init[j])) == e2(init[j], GroupOf(t, init[j])) {
        assert init[j] == keys[j];
      }
      ParagraphsAgree(t, init, e1, e2);
    }
  }

  /** Printing reads the groups only, not the order of the keys. */
  lemma {:induction false} ParagraphsSameGroups(t1: Table, t2: Table, keys: seq<string>,
                                                entryOf: (string, map<string, string>) -> Entry)
    requires t1.groups == t2.groups
    ensures Paragraphs(t1, keys, entryOf) == Paragraphs(t2, keys, entryOf)
    decreases |keys|
  {
    if keys != [] {
      ParagraphsSameGroups(t1, t2, keys[..|keys| - 1], entryOf);
    }
  }

  /** The sorted keys of a well-formed table are its group keys, each once, in
      increasing order. */
  lemma SortedKeys(t: Table)
    requires WellFormed(t)
    ensures StrictlyIncreasing(SortStrings(t.order))
    ensures forall k :: k in SortStrings(t.order) <==> k in t.groups
  {
    SortDistinctIncreasing(t.order);
    var r := SortStrings(t.order);
    forall k ensures k in r <==> k in t.groups {
      assert k in r <==> k in multiset(r);
      assert k in t.order <==> k in multiset(t.order);
      assert k in t.groups <==> k in (set x | x in t.order);
    }
  }

  /** The sorted keys depend only on the groups, not on the order they were created in. */
  lemma SortedKeysDetermined(t1: Table, t2: Table)
    requires WellFormed(t1) && WellFormed(t2) && t1.groups == t2.groups
    ensures SortStrings(t1.order) == SortStrings(t2.order)
  {
    SortedKeys(t1);
    SortedKeys(t2);
    IncreasingUnique(SortStrings(t1.order), SortStrings(t2.order));
  }

  /** The printing loop of `formatForecast` and `format_forecast`: one paragraph
      per key of `keys`, in order, built from the key and its group. */
  method PrintParagraphs(t: Table, keys: seq<string>, entryOf: (string, map<string, string>) -> Entry)
    returns (results: Outcome<seq<string>>)
    ensures results == Paragraphs(t, keys, entryOf)
  {
    var texts: seq<string> := [];
    for i := 0 to |keys|
      invariant Paragraphs(t, keys[..i], entryOf) == Value(texts)
    {
      var key := keys[i];
      if '_' !in key {
        // the key splits into one part, so the time part is missing and the call throws
        ParagraphsRaiseAt(t, keys, i, entryOf);
        results := Raised;
        return;
      }
      var data := GroupOf(t, key);
      ParagraphsSnoc(t, keys[..i], key, entryOf);
      assert keys[..i + 1] == keys[..i] + [key];
      texts := texts + [ForecastText(entryOf(key, data))];
    }
    assert keys[..|keys|] == keys;
    results := Value(texts);
  }

  /** A group ready for display: its key's label and its fields (`ProcessedForecast`). */
  datatype Processed = Processed(dateTime: string, forecasts: map<string, string>)

  function DateTimeOf(p: Processed): string { p.dateTime }

  /** `Object.entries(forecasts).map(...)`: each key, in key order, with its label. */
  function Entries(t: Table, labelOf: string -> string): (es: seq<Processed>)
    ensures |es| == |t.order|
    ensures forall i :: 0 <= i < |es| ==> es[i] == Processed(labelOf(t.order[i]), GroupOf(t, t.order[i]))
  {
    seq(|t.order|, i requires 0 <= i < |t.order| => Processed(labelOf(t.order[i]), GroupOf(t, t.order[i])))
  }

  /** The groups written by `rows`, labelled and sorted by label: as many entries
      as there are distinct keys, and none for no rows. */
  function SortedGroups(rows: seq<Row>, labelOf: string -> string): (r: seq<Processed>)
    ensures SortedBy(r, DateTimeOf)
    ensures |r| == |Group(rows).groups|
    ensures rows == [] ==> r == []
  {
    GroupWellFormed(rows);
    var es := Entries(Group(rows), labelOf);
    var r := SortBy(es, DateTimeOf);
    assert |r| == |multiset(r)| == |multiset(es)| == |es|;
    r
  }

  /** The groups of `t`, each under the label of its key. */
  ghost function Labelled(t: Table, labelOf: string -> string): set<Processed>
  {
    set k | k in t.groups :: Processed(labelOf(k), t.groups[k])
  }

  /** Each sorted entry is one group under its label, and each group has an entry. */
  lemma SortedGroupsEntries(rows: seq<Row>, labelOf: string -> string)
    ensures (set p | p in SortedGroups(rows, labelOf)) == Labelled(Group(rows), labelOf)
  {
    GroupWellFormed(rows);
    SortedEntries(Group(rows), labelOf);
  }

  /** Sorting the entries of a well-formed table neither loses nor invents a group. */
  lemma SortedEntries(t: Table, labelOf: string -> string)
    requires WellFormed(t)
    ensures (set p | p in SortBy(Entries(t, labelOf), DateTimeOf)) == Labelled(t, labelOf)
  {
    var es := Entries(t, labelOf);
    var r := SortBy(es, DateTimeOf);
    forall p | p in r ensures p in Labelled(t, labelOf) {
      var j :| 0 <= j < |r| && r[j] == p;
      var i := PermutationIndex(es, r, j);
      EntryIsGroup(t, labelOf, i);
    }
    forall p | p in Labelled(t, labelOf) ensures p in r {
      var k :| k in t.groups && p == Processed(labelOf(k), t.groups[k]);
      assert k in (set x | x in t.order);
      var i :| 0 <= i < |t.order| && t.order[i] == k;
      EntryIsGroup(t, labelOf, i);
      var j := PermutationIndex(r, es, i);
    }
  }

  /** Entry `i` holds the group of the `i`-th key. */
  lemma EntryIsGroup(t: Table, labelOf: string -> string, i: int)
    requires WellFormed(t) && 0 <= i < |t.order|
    ensures t.order[i] in t.groups
    ensures Entries(t, labelOf)[i] == Processed(labelOf(t.order[i]), t.groups[t.order[i]])
  {
    assert t.order[i] in (set x | x in t.order);
  }

  /** Sorted results that are strictly increasing by label depend only on the
      groups, not on the order in which the rows wrote them. */
  lemma SortedGroupsDependsOnGroups(rows1: seq<Row>, rows2: seq<Row>, labelOf: string -> string)
    requires Group(rows1).groups == Group(rows2).groups
    requires forall a, b :: 0 <= a < b < |SortedGroups(rows1, labelOf)| ==>
      Below(SortedGroups(rows1, labelOf)[a].dateTime, SortedGroups(rows1, labelOf)[b].dateTime)
    requires forall a, b :: 0 <= a < b < |SortedGroups(rows2, labelOf)| ==>
      Below(SortedGroups(rows2, labelOf)[a].dateTime, SortedGroups(rows2, labelOf)[b].dateTime)
    ensures SortedGroups(rows1, labelOf) == SortedGroups(rows2, labelOf)
  {
    var r1, r2 := SortedGroups(rows1, labelOf), SortedGroups(rows2, labelOf);
    SortedGroupsEntries(rows1, labelOf);
    SortedGroupsEntries(rows2, labelOf);
    var l1, l2 := Labelled(Group(rows1), labelOf), Labelled(Group(rows2), labelOf);
    assert l1 == l2;
    forall p ensures p in r1 <==> p in r2 {
      assert p in r1 <==> p in l1;
      assert p in r2 <==> p in l2;
    }
    IncreasingByUnique(r1, r2, DateTimeOf);
  }

  /** When different keys have different labels, the sorted entries are strictly
      increasing by label. */
  lemma SortedGroupsStrict(rows: seq<Row>, labelOf: string -> string)
    requires forall a, b :: 0 <= a < |rows| && 0 <= b < |rows| && rows[a].key != rows[b].key
               ==> labelOf(rows[a].key) != labelOf(rows[b].key)
    ensures forall a, b :: 0 <= a < b < |SortedGroups(rows, labelOf)| ==>
      Below(SortedGroups(rows, labelOf)[a].dateTime, SortedGroups(rows, labelOf)[b].dateTime)
  {
    GroupWellFormed(rows);
    GroupKeys(rows);
    var t := Group(rows);
    forall k1, k2 | k1 in t.groups && k2 in t.groups && k1 != k2
      ensures labelOf(k1) != labelOf(k2)
    {
      var a :| 0 <= a < |rows| && rows[a].key == k1;
      var b :| 0 <= b < |rows| && rows[b].key == k2;
    }
    SortedEntriesStrict(t, labelOf);
  }

  /** Entries of a well-formed table whose keys have pairwise different labels
      sort into a strictly increasing list of labels. */
  lemma SortedEntriesStrict(t: Table, labelOf: string -> string)
    requires WellFormed(t)
    requires forall k1, k2 :: k1 in t.groups && k2 in t.groups && k1 != k2 ==> labelOf(k1) != labelOf(k2)
    ensures forall a, b :: 0 <= a < b < |SortBy(Entries(t, labelOf), DateTimeOf)| ==>
      Below(SortBy(Entries(t, labelOf), DateTimeOf)[a].dateTime, SortBy(Entries(t, labelOf), DateTimeOf)[b].dateTime)
  {
    var es := Entries(t, labelOf);
    forall i, j | 0 <= i < j < |es| ensures DateTimeOf(es[i]) != DateTimeOf(es[j]) {
      EntryIsGroup(t, labelOf, i);
      EntryIsGroup(t, labelOf, j);
    }
    SortByStrict(es, DateTimeOf);
  }
}

=== FILE: order.dfy ===
/** Lexicographic order on strings (character by character, a proper prefix
    first) and the stable sort the reshaper uses: `Array.prototype.sort` with a
    string comparison in TypeScript, `sorted` in Python. */
module Order {

  /** `a` sorts strictly before `b`. */
  predicate Below(a: string, b: string)
    decreases |a|
  {
    if a == [] then b != []
    else if b == [] then false
    else if a[0] != b[0] then a[0] < b[0]
    else Below(a[1..], b[1..])
  }

  lemma {:induction false} BelowIrreflexive(a: string)
    ensures !Below(a, a)
    decreases |a|
  {
    if a != [] {
      BelowIrreflexive(a[1..]);
    }
  }

  lemma {:induction false} BelowTransitive(a: string, b: string, c: string)
    requires Below(a, b) && Below(b, c)
    ensures Below(a, c)
    decreases |a|
  {
    if a != [] && b != [] && c != [] && a[0] == b[0] == c[0] {
      BelowTransitive(a[1..], b[1..], c[1..]);
    }
  }

  /** Any two different strings are ordered one way or the other. */
  lemma {:induction false} BelowTotal(a: string, b: string)
    ensures a == b || Below(a, b) || Below(b, a)
    decreases |a|
  {
    if a != [] && b != [] && a[0] == b[0] {
      BelowTotal(a[1..], b[1..]);
      if a[1..] == b[1..] {
        assert a == [a[0]] + a[1..] && b == [b[0]] + b[1..];
      }
    }
  }

  lemma BelowAsymmetric(a: string, b: string)
    requires Below(a, b)
    ensures !Below(b, a)
  {
    if Below(b, a) {
      BelowTransitive(a, b, a);
      BelowIrreflexive(a);
    }
  }

  /** `s` is in non-decreasing order of `key`. */
  predicate SortedBy<T>(s: seq<T>, key: T -> string)
  {
    forall i, j :: 0 <= i < j < |s| ==> !Below(key(s[j]), key(s[i]))
  }

  /** `s` is in strictly increasing order. */
  predicate StrictlyIncreasing(s: seq<string>)
  {
    forall i, j :: 0 <= i < j < |s| ==> Below(s[i], s[j])
  }

  /** Inserts `x` after every element whose key is not above its own. */
  function InsertBy<T(==)>(x: T, s: seq<T>, key: T -> string): (r: seq<T>)
    ensures multiset(r) == multiset(s) + multiset{x}
    ensures SortedBy(s, key) ==> SortedBy(r, key)
    decreases |s|
  {
    if s == [] then [x]
    else if Below(key(x), key(s[0])) then
      var r := [x] + s;
      assert SortedBy(s, key) ==> SortedBy(r, key) by {
        if SortedBy(s, key) {
          forall i, j | 0 <= i < j < |r| ensures !Below(key(r[j]), key(r[i])) {
            if i == 0 {
              if j > 1 {
                BelowTotal(key(s[0]), key(s[j - 1]));
                if Below(key(s[0]), key(s[j - 1])) {
                  BelowTransitive(key(x), key(s[0]), key(s[j - 1]));
                }
              }
              BelowAsymmetric(key(x), key(r[j]));
            }
          }
        }
      }
      assert s == [s[0]] + s[1..];
      r
    else
      var rest := InsertBy(x, s[1..], key);
      var r := [s[0]] + rest;
      assert SortedBy(s, key) ==> SortedBy(r, key) by {
        if SortedBy(s, key) {
          assert SortedBy(s[1..], key) by {
            forall i, j | 0 <= i < j < |s[1..]| ensures !Below(key(s[1..][j]), key(s[1..][i])) {
              assert s[1..][j] == s[j + 1] && s[1..][i] == s[i + 1];
            }
          }
          forall j | 0 < j < |r| ensures !Below(key(r[j]), key(r[0])) {
            assert r[j] in multiset(rest);
            assert r[j] in multiset(s[1..]) || r[j] == x;
            if r[j] != x {
              var k :| 0 <= k < |s[1..]| && s[1..][k] == r[j];
              assert s[k + 1] == r[j];
            }
          }
        }
      }
      assert s == [s[0]] + s[1..];
      r
  }

  /** Stable insertion sort by `key`: the result is ordered by `key` and is a
      permutation of `s`. */
  function SortBy<T(==)>(s: seq<T>, key: T -> string): (r: seq<T>)
    ensures multiset(r) == multiset(s)
    ensures SortedBy(r, key)
    decreases |s|
  {
    if s == [] then []
    else
      assert s == s[..|s| - 1] + [s[|s| - 1]];
      InsertBy(s[|s| - 1], SortBy(s[..|s| - 1], key), key)
  }

  /** Sorting strings by their own value. */
  function SortStrings(s: seq<string>): (r: seq<string>)
    ensures multiset(r) == multiset(s) && |r| == |s|
    ensures SortedBy(r, k => k)
  {
    var r := SortBy(s, k => k);
    assert |r| == |multiset(r)| == |multiset(s)| == |s|;
    r
  }

  /** Sorting by keys that are pairwise different gives a list strictly increasing by key. */
  lemma SortByStrict<T>(s: seq<T>, key: T -> string)
    requires forall i, j :: 0 <= i < j < |s| ==> key(s[i]) != key(s[j])
    ensures forall a, b :: 0 <= a < b < |SortBy(s, key)| ==> Below(key(SortBy(s, key)[a]), key(SortBy(s, key)[b]))
  {
    var r := SortBy(s, key);
    assert forall i, j :: 0 <= i < j < |s| ==> s[i] != s[j];
    forall a, b | 0 <= a < b < |r| ensures Below(key(r[a]), key(r[b])) {
      MultisetDistinct(s, r, a, b);
      PermutedKeysDistinct(s, r, key, a, b);
      BelowTotal(key(r[a]), key(r[b]));
    }
  }

  /** Two different elements of a permutation of a list with pairwise different keys have different keys. */
  lemma PermutedKeysDistinct<T>(s: seq<T>, r: seq<T>, key: T -> string, a: int, b: int)
    requires forall i, j :: 0 <= i < j < |s| ==> key(s[i]) != key(s[j])
    requires multiset(r) == multiset(s)
    requires 0 <= a < |r| && 0 <= b < |r| && r[a] != r[b]
    ensures key(r[a]) != key(r[b])
  {
    assert r[a] in multiset(s) && r[b] in multiset(s);
    var i :| 0 <= i < |s| && s[i] == r[a];
    var j :| 0 <= j < |s| && s[j] == r[b];
    assert i != j;
  }

  /** Sorting a list of distinct strings gives a strictly increasing list. */
  lemma SortDistinctIncreasing(s: seq<string>)
    requires forall i, j :: 0 <= i < j < |s| ==> s[i] != s[j]
    ensures StrictlyIncreasing(SortStrings(s))
  {
    SortByStrict(s, k => k);
  }

  /** Two positions of a permutation of a list of distinct elements hold different elements. */
  lemma MultisetDistinct<T>(s: seq<T>, r: seq<T>, i: int, j: int)
    requires forall a, b :: 0 <= a < b < |s| ==> s[a] != s[b]
    requires multiset(r) == multiset(s)
    requires 0 <= i < j < |r|
    ensures r[i] != r[j]
  {
    if r[i] == r[j] {
      RepeatedCount(r, i, j);
      DistinctCount(s, r[i]);
      assert false;
    }
  }

  lemma RepeatedCount<T>(r: seq<T>, i: int, j: int)
    requires 0 <= i < j < |r| && r[i] == r[j]
    ensures multiset(r)[r[i]] >= 2
  {
    var x := r[i];
    assert r == r[..i] + [x] + r[i + 1..j] + [x] + r[j + 1..];
  }

  lemma {:induction false} DistinctCount<T>(s: seq<T>, x: T)
    requires forall a, b :: 0 <= a < b < |s| ==> s[a] != s[b]
    ensures multiset(s)[x] <= 1
    decreases |s|
  {
    if s != [] {
      var init := s[..|s| - 1];
      assert s == init + [s[|s| - 1]];
      DistinctCount(init, x);
      if x == s[|s| - 1] {
        assert x !in init;
      }
    }
  }

  /** A strictly increasing list is determined by its elements: sorting the keys
      of a dictionary gives the same list whatever order they were inserted in. */
  lemma {:induction false} IncreasingUnique(r: seq<string>, q: seq<string>)
    requires StrictlyIncreasing(r) && StrictlyIncreasing(q)
    requires forall x :: x in r <==> x in q
    ensures r == q
    decreases |r|
  {
    SameElementsEmpty(r, q);
    if r != [] {
      assert r[0] in q;
      assert q[0] in r;
      if r[0] != q[0] {
        var a :| 0 <= a < |r| && r[a] == q[0];
        var b :| 0 <= b < |q| && q[b] == r[0];
        assert a > 0 && b > 0;
        BelowAsymmetric(r[0], r[a]);
      }
      assert forall x :: x in r[1..] <==> x in q[1..] by {
        forall x | x in r[1..] ensures x in q[1..] {
          var a :| 1 <= a < |r| && r[a] == x;
          assert Below(r[0], x);
          BelowIrreflexive(x);
          assert x in q;
          var b :| 0 <= b < |q| && q[b] == x;
          assert b != 0;
        }
        forall x | x in q[1..] ensures x in r[1..] {
          var b :| 1 <= b < |q| && q[b] == x;
          assert Below(q[0], x);
          BelowIrreflexive(x);
          assert x in r;
          var a :| 0 <= a < |r| && r[a] == x;
          assert a != 0;
        }
      }
      IncreasingUnique(r[1..], q[1..]);
      assert r == [r[0]] + r[1..] && q == [q[0]] + q[1..];
    }
  }

  /** A list strictly increasing by `key` is determined by its elements. */
  lemma IncreasingByUnique<T>(r: seq<T>, q: seq<T>, key: T -> string)
    requires forall a, b :: 0 <= a < b < |r| ==> Below(key(r[a]), key(r[b]))
    requires forall a, b :: 0 <= a < b < |q| ==> Below(key(q[a]), key(q[b]))
    requires forall x :: x in r <==> x in q
    ensures r == q
  {
    var kr := seq(|r|, i requires 0 <= i < |r| => key(r[i]));
    var kq := seq(|q|, i requires 0 <= i < |q| => key(q[i]));
    forall x ensures x in kr <==> x in kq {
      if x in kr {
        var a :| 0 <= a < |r| && kr[a] == x;
        assert r[a] in q;
        var b :| 0 <= b < |q| && q[b] == r[a];
        assert kq[b] == x;
      }
      if x in kq {
        var b :| 0 <= b < |q| && kq[b] == x;
        assert q[b] in r;
        var a :| 0 <= a < |r| && r[a] == q[b];
        assert kr[a] == x;
      }
    }
    IncreasingUnique(kr, kq);
    forall i | 0 <= i < |r| ensures r[i] == q[i] {
      assert r[i] in q;
      var b :| 0 <= b < |q| && q[b] == r[i];
      assert kq[b] == kq[i];
      if b != i {
        BelowIrreflexive(kq[i]);
      }
    }
  }

  /** Every element of a permutation has a position in the original. */
  lemma PermutationIndex<T>(s: seq<T>, r: seq<T>, j: int) returns (i: int)
    requires multiset(r) == multiset(s) && 0 <= j < |r|
    ensures 0 <= i < |s| && s[i] == r[j]
  {
    assert r[j] in multiset(s);
    i :| 0 <= i < |s| && s[i] == r[j];
  }

  lemma SameElementsEmpty(r: seq<string>, q: seq<string>)
    requires forall x :: x in r <==> x in q
    ensures r == [] <==> q == []
  {
    if r != [] {
      assert r[0] in q;
    }
    if q != [] {
      assert q[0] in r;
    }
  }
}

=== FILE: text.dfy ===
/** Decimal digit strings and the small string operations the weather code
    relies on: `String(n)`, `padStart(2, "0")`, `parseInt` on digit strings,
    `slice`/`substring` with non-negative bounds and `split` on a separator. */
module Text {

  predicate IsDigit(c: char) { '0' <= c <= '9' }

  predicate AllDigits(s: string) { forall i :: 0 <= i < |s| ==> IsDigit(s[i]) }

  function DigitChar(d: nat): (c: char)
    requires d < 10
    ensures IsDigit(c) && c as int - '0' as int == d
  {
    ('0' as int + d) as char
  }

  /** `String(n)` for a non-negative integer: its decimal digits, no leading zero. */
  function Decimal(n: nat): (s: string)
    ensures 1 <= |s| && AllDigits(s)
    ensures n < 10 <==> |s| == 1
    ensures 10 <= n ==> s[0] != '0'
    decreases n
  {
    if n < 10 then [DigitChar(n)] else Decimal(n / 10) + [DigitChar(n % 10)]
  }

  /** `String(n)` for any integer: a minus sign before the digits of a negative number. */
  function IntText(n: int): string
  {
    if n < 0 then "-" + Decimal(-n) else Decimal(n)
  }

  /** `String(n)` reads back as `n`: the digits of a non-negative number, or a
      minus sign followed by the digits of `-n`. */
  lemma IntTextRoundTrip(n: int)
    ensures 0 <= n ==> AllDigits(IntText(n)) && DigitsValue(IntText(n)) == n
    ensures n < 0 ==> |IntText(n)| >= 2 && IntText(n)[0] == '-'
                      && AllDigits(IntText(n)[1..]) && DigitsValue(IntText(n)[1..]) == -n
  {
    if n < 0 {
      DecimalRoundTrip(-n);
      assert IntText(n)[1..] == Decimal(-n);
    } else {
      DecimalRoundTrip(n);
    }
  }

  /** Different integers have different texts. */
  lemma IntTextInjective(m: int, n: int)
    requires IntText(m) == IntText(n)
    ensures m == n
  {
    IntTextRoundTrip(m);
    IntTextRoundTrip(n);
  }

  /** `parseInt` of a string made only of decimal digits. */
  function DigitsValue(s: string): nat
    requires AllDigits(s)
  {
    if s == [] then 0 else 10 * DigitsValue(s[..|s| - 1]) + (s[|s| - 1] as int - '0' as int)
  }

  /** Reading back the digits that `Decimal` writes gives the number again. */
  lemma {:induction false} DecimalRoundTrip(n: nat)
    ensures DigitsValue(Decimal(n)) == n
    decreases n
  {
    if n >= 10 {
      DecimalRoundTrip(n / 10);
      var s := Decimal(n);
      assert s[..|s| - 1] == Decimal(n / 10);
    }
  }

  /** Decimal numbers from 1000 to 9999 have exactly four digits. */
  lemma DecimalFourDigits(n: nat)
    requires 1000 <= n <= 9999
    ensures |Decimal(n)| == 4
  {
    assert |Decimal(n / 1000)| == 1;
    assert |Decimal(n / 100)| == |Decimal(n / 1000)| + 1;
    assert |Decimal(n / 10)| == |Decimal(n / 100)| + 1;
    assert |Decimal(n)| == |Decimal(n / 10)| + 1;
  }

  /** `s.padStart(2, "0")`: zeros in front up to length 2; longer strings are unchanged. */
  function PadStart2(s: string): (r: string)
    ensures |r| == if |s| < 2 then 2 else |s|
    ensures r[|r| - |s|..] == s
    ensures forall i :: 0 <= i < |r| - |s| ==> r[i] == '0'
  {
    if |s| >= 2 then s else if |s| == 1 then "0" + s else "00"
  }

  /** `s.slice(i, j)` / `s.substring(i, j)` / `s[i:j]` for bounds `0 <= i <= j`:
      both bounds are clamped to the length of `s`. */
  function Slice(s: string, i: nat, j: nat): (r: string)
    requires i <= j
    ensures |r| <= j - i
    ensures j <= |s| ==> r == s[i..j]
    ensures |s| < j ==> r == (if i <= |s| then s[i..] else [])
  {
    var hi := if j <= |s| then j else |s|;
    var lo := if i <= hi then i else hi;
    s[lo..hi]
  }

  /** `s.split(c)[0]`: the text before the first `c`, or all of `s` when there is none. */
  function UpTo(s: string, c: char): (r: string)
    ensures |r| <= |s| && r == s[..|r|]
    ensures c !in r
    ensures |r| < |s| ==> s[|r|] == c
  {
    if s == [] || s[0] == c then [] else [s[0]] + UpTo(s[1..], c)
  }

  /** The text after the first `c` (empty when `s` holds no `c`). */
  function After(s: string, c: char): string
  {
    var head := UpTo(s, c);
    if |head| < |s| then s[|head| + 1..] else []
  }

  /** `s.split(c)[1]`: the field between the first and the second `c`. */
  function SecondField(s: string, c: char): string
  {
    UpTo(After(s, c), c)
  }

  /** Joining two fields with a separator neither of them contains and splitting
      the result again gives back both fields. */
  lemma {:induction false} SplitJoin(a: string, b: string, c: char)
    requires c !in a && c !in b
    ensures UpTo(a + [c] + b, c) == a
    ensures SecondField(a + [c] + b, c) == b
  {
    UpToPrefix(a, [c] + b, c);
    assert a + [c] + b == a + ([c] + b);
    assert (a + [c] + b)[|a| + 1..] == b;
    UpToWhole(b, c);
  }

  lemma {:induction false} UpToPrefix(a: string, rest: string, c: char)
    requires c !in a && rest != [] && rest[0] == c
    ensures UpTo(a + rest, c) == a
  {
    if a != [] {
      assert (a + rest)[1..] == a[1..] + rest;
      UpToPrefix(a[1..], rest, c);
    } else {
      assert a + rest == rest;
    }
  }

  lemma {:induction false} UpToWhole(s: string, c: char)
    requires c !in s
    ensures UpTo(s, c) == s
  {
    if s != [] {
      UpToWhole(s[1..], c);
    }
  }
}

=== FILE: weather_api.dfy ===
/** `weather-ts/src/weather-api.ts`: the base-time resolver that scans the
    slots backwards with a `found` flag, and `processForecasts`, which groups
    forecast items by date and time, relabels categories and codes, and returns
    the groups sorted by their `YYYY-MM-DD HH:MM` label. */
module WeatherApi {
  import opened Calendar
  import opened Order
  import opened BaseTime
  import opened Forecast

  /** `CATEGORY_MAP`: display names of the forecast categories. */
  const CategoryMap: map<string, string> := map[
    "POP" := "강수확률(%)",
    "PTY" := "강수형태",
    "PCP" := "1시간 강수량(mm)",
    "REH" := "습도(%)",
    "SNO" := "1시간 신적설(cm)",
    "SKY" := "하늘상태",
    "TMP" := "1시간 기온(℃)",
    "TMN" := "일 최저기온(℃)",
    "TMX" := "일 최고기온(℃)",
    "UUU" := "풍속(동서성분)(m/s)",
    "VVV" := "풍속(남북성분)(m/s)",
    "WAV" := "파고(m)",
    "VEC" := "풍향(deg)",
    "WSD" := "풍속(m/s)"
  ]

  /** `getCurrentDateTime`: the issue to request at clock reading `now`. */
  method GetCurrentDateTime(now: WallClock) returns (baseDate: string, baseTime: string)
    requires ValidClock(now)
    ensures (baseDate, baseTime) == Render(Resolve(now))
    ensures baseTime in BaseTimes
  {
    var currentHour, currentMinute := now.hour, now.minute;
    baseDate := FormatDate(now.date);
    baseTime := "0200";
    if currentHour < 2 || (currentHour == 2 && currentMinute < 10) {
      baseDate := FormatDate(PrevDay(now.date));
      baseTime := "2300";
    } else {
      var found := false;
      var i := |BaseTimes| - 1;
      while i >= 0
        invariant -1 <= i < |BaseTimes|
        invariant forall k :: i < k < |BaseTimes| ==> !Due(currentHour, currentMinute, SlotHour(k))
        invariant !found && baseDate == FormatDate(now.date)
        invariant !BeforeFirstSlot(currentHour, currentMinute)
      {
        var baseHour := SlotHour(i);
        if currentHour > baseHour || (currentHour == baseHour && currentMinute >= 10) {
          baseTime := BaseTimes[i];
          found := true;
          break;
        }
        i := i - 1;
      }
      if found {
        LatestDueUnique(currentHour, currentMinute, |BaseTimes| - 1, i);
      } else {
        LatestDueUnique(currentHour, currentMinute, |BaseTimes| - 1, -1);
        FallbackUnreachable(currentHour, currentMinute);
      }
      if !found {
        baseDate := FormatDate(PrevDay(now.date));
        baseTime := "2300";
      }
    }
  }

  /** A known sky or precipitation code is replaced by its label; any other value is kept. */
  function DisplayValue(category: string, value: string): (r: string)
    ensures r != value <==> (category == "SKY" && value in SkyCodes) || (category == "PTY" && value in PtyCodes)
    ensures category == "SKY" && value in SkyCodes ==> r == SkyCodes[value]
    ensures category == "PTY" && value in PtyCodes ==> r == PtyCodes[value]
  {
    if category == "SKY" && value in SkyCodes then SkyCodes[value]
    else if category == "PTY" && value in PtyCodes then PtyCodes[value]
    else value
  }

  /** A listed category is renamed through `CATEGORY_MAP`; any other is kept. */
  function DisplayCategory(category: string): (r: string)
    ensures r != category <==> category in CategoryMap
    ensures category in CategoryMap ==> r == CategoryMap[category]
  {
    if category in CategoryMap then CategoryMap[category] else category
  }

  /** The write one item makes: `forecasts["<date> <time>"][displayCategory] = displayValue`. */
  function ApiRow(item: Item): Row
  {
    Row(item.fcstDate + " " + item.fcstTime, DisplayCategory(item.category), DisplayValue(item.category, item.fcstValue))
  }

  /** The `YYYY-MM-DD HH:MM` label of a key `"<fcstDate> <fcstTime>"`. */
  function ApiLabel(key: string): string
  {
    KeyLabel(key, ' ')
  }

  /** What `processForecasts` returns for `items`. */
  function Reshape(items: seq<Item>): seq<Processed>
  {
    SortedGroups(Rows(items, ApiRow), ApiLabel)
  }

  /** The value conversion and the category renaming of one item in
      `processForecasts`. */
  method Relabel(category: string, value: string) returns (displayCategory: string, displayValue: string)
    ensures displayCategory == DisplayCategory(category)
    ensures displayValue == DisplayValue(category, value)
  {
    displayValue := value;
    if category == "SKY" && value in SkyCodes {
      displayValue := SkyCodes[value];
    } else if category == "PTY" && value in PtyCodes {
      displayValue := PtyCodes[value];
    }
    displayCategory := if category in CategoryMap then CategoryMap[category] else category;
  }

  /** `processForecasts`: group the items by `"<fcstDate> <fcstTime>"`, store each
      relabelled value under its display category, and sort the groups by label. */
  method ProcessForecasts(items: seq<Item>) returns (result: seq<Processed>)
    ensures result == Reshape(items)
  {
    var forecasts: map<string, map<string, string>> := map[];
    var keys: seq<string> := [];
    ghost var rows := Rows(items, ApiRow);
    for n := 0 to |items|
      invariant Table(keys, forecasts) == Group(rows[..n])
    {
      var item := items[n];
      var key := item.fcstDate + " " + item.fcstTime;
      if key !in forecasts {
        forecasts := forecasts[key := map[]];
        keys := keys + [key];
      }
      var displayCategory, displayValue := Relabel(item.category, item.fcstValue);
      forecasts := forecasts[key := forecasts[key][displayCategory := displayValue]];
      assert rows[..n + 1][..n] == rows[..n];
    }
    assert rows[..|items|] == rows;
    result := SortBy(Entries(Table(keys, forecasts), ApiLabel), DateTimeOf);
  }

  /** Last write wins, after relabelling: the group of an item's date and time
      holds, under the item's display category, the display value of the last
      item with that date, time and display category. */
  lemma ReshapeLastWins(items: seq<Item>, i: int)
    requires 0 <= i < |items|
    requires forall j :: i < j < |items| ==> !(ApiRow(items[j]).key == ApiRow(items[i]).key
                                              && ApiRow(items[j]).field == ApiRow(items[i]).field)
    ensures exists j :: (0 <= j < |Reshape(items)|
      && Reshape(items)[j].dateTime == KeyLabel(items[i].fcstDate + " " + items[i].fcstTime, ' ')
      && DisplayCategory(items[i].category) in Reshape(items)[j].forecasts
      && Reshape(items)[j].forecasts[DisplayCategory(items[i].category)]
         == DisplayValue(items[i].category, items[i].fcstValue))
  {
    var rows := Rows(items, ApiRow);
    var row := rows[i];
    assert LastWrite(rows, i, row.key, row.field);
    GroupLastWins(rows, i, row.key, row.field);
    SortedGroupsEntries(rows, ApiLabel);
    var t := Group(rows);
    var p := Processed(ApiLabel(row.key), t.groups[row.key]);
    assert p in Labelled(t, ApiLabel);
    var r := Reshape(items);
    assert p in r;
    var j :| 0 <= j < |r| && r[j] == p;
  }

  /** When every date has eight characters and every time four, neither holding
      a space, the labels are distinct and the result is strictly increasing
      by label: one entry per date and time, in chronological order. */
  lemma ReshapeStrictlyIncreasing(items: seq<Item>)
    requires forall i :: 0 <= i < |items| ==>
      |items[i].fcstDate| == 8 && |items[i].fcstTime| == 4
      && ' ' !in items[i].fcstDate && ' ' !in items[i].fcstTime
    ensures forall a, b :: 0 <= a < b < |Reshape(items)| ==>
      Below(Reshape(items)[a].dateTime, Reshape(items)[b].dateTime)
  {
    var rows := Rows(items, ApiRow);
    forall a, b | 0 <= a < |rows| && 0 <= b < |rows| && rows[a].key != rows[b].key
      ensures ApiLabel(rows[a].key) != ApiLabel(rows[b].key)
    {
      KeyLabelOfJoined(items[a].fcstDate, items[a].fcstTime, ' ');
      KeyLabelOfJoined(items[b].fcstDate, items[b].fcstTime, ' ');
      LabelsDistinct(items[a].fcstDate, items[a].fcstTime, items[b].fcstDate, items[b].fcstTime);
    }
    SortedGroupsStrict(rows, ApiLabel);
  }

  /** `processForecasts` depends only on the groups its items build: two item
      lists of well-formed dates and times that leave the same value under every
      date, time and display category give the same result, whatever their order. */
  lemma ReshapeDependsOnGroups(items1: seq<Item>, items2: seq<Item>)
    requires forall i :: 0 <= i < |items1| ==>
      |items1[i].fcstDate| == 8 && |items1[i].fcstTime| == 4
      && ' ' !in items1[i].fcstDate && ' ' !in items1[i].fcstTime
    requires forall i :: 0 <= i < |items2| ==>
      |items2[i].fcstDate| == 8 && |items2[i].fcstTime| == 4
      && ' ' !in items2[i].fcstDate && ' ' !in items2[i].fcstTime
    requires Group(Rows(items1, ApiRow)).groups == Group(Rows(items2, ApiRow)).groups
    ensures Reshape(items1) == Reshape(items2)
  {
    ReshapeStrictlyIncreasing(items1);
    ReshapeStrictlyIncreasing(items2);
    assert Reshape(items1) == SortedGroups(Rows(items1, ApiRow), ApiLabel);
    assert Reshape(items2) == SortedGroups(Rows(items2, ApiRow), ApiLabel);
    SortedGroupsDependsOnGroups(Rows(items1, ApiRow), Rows(items2, ApiRow), ApiLabel);
  }

  /** Different keys `date + " " + time` of well-formed dates and times have different labels. */
  lemma LabelsDistinct(d1: string, t1: string, d2: string, t2: string)
    requires |d1| == 8 && |t1| == 4 && |d2| == 8 && |t2| == 4
    requires d1 + " " + t1 != d2 + " " + t2
    ensures DateTimeLabel(d1, t1) != DateTimeLabel(d2, t2)
  {
    if DateTimeLabel(d1, t1) == DateTimeLabel(d2, t2) {
      DateTimeLabelInjective(d1, t1, d2, t2);
    }
  }
}

=== FILE: weather_index.dfy ===
/** `weather-ts/index.ts`: the base-time resolver that scans the slots forwards
    and returns at the first one not yet due, `parseWeatherData`, which groups
    the raw items by `"<fcstDate>_<fcstTime>"`, and `formatForecast`, which
    prints the first groups in key order. */
module WeatherIndex {
  import opened Text
  import opened Calendar
  import opened Order
  import opened BaseTime
  import opened Forecast

  /** `getBaseTime`: the issue to request at clock reading `now`. */
  method GetBaseTime(now: WallClock) returns (baseDate: string, baseTime: string)
    requires ValidClock(now)
    ensures (baseDate, baseTime) == Render(Resolve(now))
  {
    var currentHour, currentMinute := now.hour, now.minute;
    if currentHour < 2 {
      assert Resolve(now) == Base(PrevDay(now.date), |BaseTimes| - 1);
      var yesterday := PrevDay(now.date);
      baseDate := FormatDate(yesterday);
      baseTime := "2300";
    } else {
      for i := 0 to |BaseTimes|
        invariant forall k :: 0 <= k < i ==> Due(currentHour, currentMinute, SlotHour(k))
      {
        var timeHour := SlotHour(i);
        if currentHour < timeHour || (currentHour == timeHour && currentMinute < 10) {
          // the scan stops at the first slot not yet due
          FirstNotDueUnique(currentHour, currentMinute, 0, i);
          ScanDirectionsAgree(currentHour, currentMinute);
          if i == 0 {
            assert BeforeFirstSlot(currentHour, currentMinute);
            assert Resolve(now) == Base(PrevDay(now.date), |BaseTimes| - 1);
            var yesterday := PrevDay(now.date);
            baseDate := FormatDate(yesterday);
            baseTime := BaseTimes[|BaseTimes| - 1];
          } else {
            assert Resolve(now) == Base(now.date, i - 1);
            baseDate := FormatDate(now.date);
            baseTime := BaseTimes[i - 1];
          }
          return;
        }
      }
      FirstNotDueUnique(currentHour, currentMinute, 0, |BaseTimes|);
      ScanDirectionsAgree(currentHour, currentMinute);
      assert Resolve(now) == Base(now.date, |BaseTimes| - 1);
      baseDate := FormatDate(now.date);
      baseTime := BaseTimes[|BaseTimes| - 1];
    }
  }

  /** `parseWeatherData`: the grouping loop `GroupItems`. */
  method ParseWeatherData(items: seq<Item>) returns (forecasts: Table)
    ensures forecasts == Group(Rows(items, KeyedRow))
  {
    forecasts := GroupItems(items);
  }

  /** Last write wins: the group of an item's date and time holds, under the
      item's category, the value of the last item with that key and category. */
  lemma ParseLastWins(items: seq<Item>, i: int)
    requires 0 <= i < |items|
    requires forall j :: i < j < |items| ==> !(KeyedRow(items[j]).key == KeyedRow(items[i]).key
                                              && items[j].category == items[i].category)
    ensures var t := Group(Rows(items, KeyedRow));
      KeyedRow(items[i]).key in t.groups && items[i].category in t.groups[KeyedRow(items[i]).key]
      && t.groups[KeyedRow(items[i]).key][items[i].category] == items[i].fcstValue
  {
    var rows := Rows(items, KeyedRow);
    assert LastWrite(rows, i, rows[i].key, rows[i].field);
    GroupLastWins(rows, i, rows[i].key, rows[i].field);
  }

  /** `data.X || "알 수 없음"`: a missing or empty field reads as unknown. */
  function TsField(data: map<string, string>, name: string): (r: string)
    ensures r == Unknown || (name in data && r == data[name] && r != "")
    ensures name in data && data[name] != "" ==> r == data[name]
    ensures name !in data ==> r == Unknown
  {
    if name in data && data[name] != "" then data[name] else Unknown
  }

  /** The paragraph of the group `data` under `key`. */
  function TsEntry(key: string, data: map<string, string>): Entry
  {
    CodesLabelled();
    Entry(KeyLabel(key, '_'), TsField(data, "TMP"), CodeLabel(SkyCodes, data, "SKY"),
          CodeLabel(PtyCodes, data, "PTY"), TsField(data, "POP"), TsField(data, "REH"), TsField(data, "WSD"))
  }

  /** `Math.min(n, limit)` as a loop bound: a negative limit shows nothing. */
  function TsCount(n: nat, limit: int): (c: nat)
    ensures c <= n
    ensures limit < 0 ==> c == 0
    ensures 0 <= limit ==> c == if limit < n then limit else n
  {
    if limit < n then (if limit < 0 then 0 else limit) else n
  }

  /** The keys `formatForecast` prints: the first `Math.min(n, limit)` in sorted order. */
  function TsShown(forecasts: Table, limit: int): (keys: seq<string>)
    ensures |keys| == TsCount(|forecasts.order|, limit)
    ensures keys <= SortStrings(forecasts.order)
  {
    var sortedKeys := SortStrings(forecasts.order);
    sortedKeys[..TsCount(|sortedKeys|, limit)]
  }

  /** What `formatForecast(forecasts, limit)` returns. */
  function TsFormat(forecasts: Table, limit: int): Outcome<seq<string>>
  {
    Paragraphs(forecasts, TsShown(forecasts, limit), TsEntry)
  }

  /** `formatForecast`: sort the keys, and print a paragraph for each of the
      first `Math.min(n, limit)` of them. */
  method FormatForecast(forecasts: Table, limit: int := DefaultLimit) returns (results: Outcome<seq<string>>)
    ensures results == TsFormat(forecasts, limit)
  {
    var sortedKeys := SortStrings(forecasts.order);
    var count := if |sortedKeys| < limit then |sortedKeys| else if limit < 0 then 0 else limit;
    results := PrintParagraphs(forecasts, sortedKeys[..count], TsEntry);
  }
}

=== FILE: weather_server.dfy ===
/** `weather-py/src/mcp_server_weather/server.py`: `get_base_time`, whose
    `for` loop over the slots ends either at a `break` or in its `else` clause,
    `parse_weather_data` and `format_forecast`. */
module WeatherServer {
  import opened Text
  import opened Calendar
  import opened Order
  import opened BaseTime
  import opened Forecast

  /** The dates a `datetime.datetime` can hold: years 1 to 9999. */
  predicate PyClock(now: WallClock)
  {
    ValidClock(now) && 1 <= now.date.year <= 9999
  }

  /** `now - timedelta(days=1)`: the day before, or `OverflowError` on 0001-01-01. */
  function PyYesterday(d: Date): (r: Outcome<Date>)
    requires ValidDate(d) && 1 <= d.year
    ensures r.Raised? <==> d == Date(1, 1, 1)
    ensures r.Value? ==> r.value == PrevDay(d) && 1 <= r.value.year
  {
    if d.year == 1 && d.month == 1 && d.day == 1 then Raised else Value(PrevDay(d))
  }

  /** What `get_base_time` returns at `now`, or `Raised` when it has to step back
      from the first day `datetime` can represent. */
  function PyBaseTime(now: WallClock): (r: Outcome<(string, string)>)
    requires PyClock(now)
    ensures r.Raised? <==> BeforeFirstSlot(now.hour, now.minute) && now.date == Date(1, 1, 1)
    ensures r.Value? ==> r.value == Render(Resolve(now))
  {
    if BeforeFirstSlot(now.hour, now.minute) && now.date == Date(1, 1, 1) then Raised
    else Value(Render(Resolve(now)))
  }

  /** `get_base_time`. */
  method GetBaseTime(now: WallClock) returns (result: Outcome<(string, string)>)
    requires PyClock(now)
    ensures result == PyBaseTime(now)
  {
    var currentHour, currentMinute := now.hour, now.minute;
    if currentHour < 2 {
      assert Resolve(now) == Base(PrevDay(now.date), |BaseTimes| - 1);
      var yesterday := PyYesterday(now.date);
      if yesterday.Raised? {
        return Raised;
      }
      result := Value((FormatDate(yesterday.value), "2300"));
    } else {
      var i := 0;
      while i < |BaseTimes|
        invariant 0 <= i <= |BaseTimes|
        invariant forall k :: 0 <= k < i ==> Due(currentHour, currentMinute, SlotHour(k))
      {
        var hour := SlotHour(i);
        if currentHour < hour || (currentHour == hour && currentMinute < 10) {
          break;
        }
        i := i + 1;
      }
      // the scan stops at the first slot not yet due
      FirstNotDueUnique(currentHour, currentMinute, 0, i);
      ScanDirectionsAgree(currentHour, currentMinute);
      if i < |BaseTimes| {
        // left the loop at `break`
        if i == 0 {
          assert BeforeFirstSlot(currentHour, currentMinute);
          assert Resolve(now) == Base(PrevDay(now.date), |BaseTimes| - 1);
          var yesterday := PyYesterday(now.date);
          if yesterday.Raised? {
            return Raised;
          }
          result := Value((FormatDate(yesterday.value), BaseTimes[|BaseTimes| - 1]));
        } else {
          assert Resolve(now) == Base(now.date, i - 1);
          result := Value((FormatDate(now.date), BaseTimes[i - 1]));
        }
      } else {
        // the `else` clause of the `for` loop
        assert Resolve(now) == Base(now.date, |BaseTimes| - 1);
        result := Value((FormatDate(now.date), BaseTimes[|BaseTimes| - 1]));
      }
    }
  }

  /** `parse_weather_data`: the same loop as `parseWeatherData`, `GroupItems`. */
  method ParseWeatherData(items: seq<Item>) returns (forecasts: Table)
    ensures forecasts == Group(Rows(items, KeyedRow))
  {
    forecasts := GroupItems(items);
  }

  /** `data.get(name, '알 수 없음')`: only a missing field reads as unknown. */
  function PyField(data: map<string, string>, name: string): (r: string)
    ensures name in data ==> r == data[name]
    ensures name !in data ==> r == Unknown
  {
    if name in data then data[name] else Unknown
  }

  /** The paragraph of the group `data` under `key`. */
  function PyEntry(key: string, data: map<string, string>): Entry
  {
    CodesLabelled();
    Entry(KeyLabel(key, '_'), PyField(data, "TMP"), CodeLabel(SkyCodes, data, "SKY"),
          CodeLabel(PtyCodes, data, "PTY"), PyField(data, "POP"), PyField(data, "REH"), PyField(data, "WSD"))
  }

  /** `keys[:limit]`: a negative limit counts from the end. */
  function PySlice(keys: seq<string>, limit: int): (r: seq<string>)
    ensures r <= keys
    ensures 0 <= limit ==> |r| == if limit < |keys| then limit else |keys|
    ensures limit < 0 ==> |r| == if |keys| + limit < 0 then 0 else |keys| + limit
  {
    if 0 <= limit then (if limit < |keys| then keys[..limit] else keys)
    else if |keys| + limit < 0 then []
    else keys[..|keys| + limit]
  }

  /** The keys `format_forecast` prints: `sorted_keys[:limit]`. */
  function PyShown(forecasts: Table, limit: int): (keys: seq<string>)
    ensures keys <= SortStrings(forecasts.order)
    ensures |keys| == if 0 <= limit then (if limit < |forecasts.order| then limit else |forecasts.order|)
                      else if |forecasts.order| + limit < 0 then 0 else |forecasts.order| + limit
  {
    PySlice(SortStrings(forecasts.order), limit)
  }

  /** What `format_forecast(forecasts, limit)` returns. */
  function PyFormat(forecasts: Table, limit: int): Outcome<seq<string>>
  {
    Paragraphs(forecasts, PyShown(forecasts, limit), PyEntry)
  }

  /** `format_forecast`: sort the keys, and print a paragraph for each key of
      `sorted_keys[:limit]`. */
  method FormatForecast(forecasts: Table, limit: int := DefaultLimit) returns (results: Outcome<seq<string>>)
    ensures results == PyFormat(forecasts, limit)
  {
    var sortedKeys := SortStrings(forecasts.order);
    var shown := if 0 <= limit then (if limit < |sortedKeys| then sortedKeys[..limit] else sortedKeys)
                 else if |sortedKeys| + limit < 0 then [] else sortedKeys[..|sortedKeys| + limit];
    results := PrintParagraphs(forecasts, shown, PyEntry);
  }
}
